=== FILE: README.md ===
# Event board server: a Dafny model

The server keeps an event board: a map from a date key to a bucket of events. Each event
has a date, a time and a description. Clients send one text line at a time:

- `add; date; time; description` files an event and re-sorts its bucket by time.
- `remove; date; time; description` deletes the first event that matches ignoring case.
- `list; date` shows the bucket for a date.
- `stop` ends the connection with the reply `TERMINATE`.

Adds and removes are checked first:

- The date must be three words: a day from 1 to 31, a full English month name, and a year
  from 1900 to 2100.
- The time must contain `am` or `pm`.

The board is saved to a text file after every change and read back at start-up.

The model covers these parts:

- The Event record (`Events`): its trimming constructor, its case-blind `equals` and its
  `hashCode`.
- The two field checks (`Validation`).
- The bucket operations (`Buckets`): stable sort by time, insert, remove-first-match and
  the `list` formatting.
- The board-level add and remove (`Store`).
- `processMessage` together with the handler that turns a thrown message into an
  `ERROR: ` reply (`Protocol`, with properties in `ProtocolProperties`).
- Save and load as pure functions between a board and a sequence of lines (`Persistence`).

Two modules model the parts of `java.lang.String` and `Integer` the server relies on,
with Java's semantics:

- `Text`: `trim`, `toLowerCase`, `equalsIgnoreCase`, `compareTo`, `contains`,
  `split(";", n)` and `split("\\s+")`.
- `Numbers`: `Integer.parseInt` with the 32-bit range, and 32-bit wrap-around.

Exceptions are the `Thrown` case of `Common.Outcome`. The board is an immutable
`map<string, seq<Event>>`: each operation returns the new board together with its reply.

Three behaviours of `processMessage` are easy to miss:

- **`list`.** It accepts two or more fields and ignores the extras.
- **Empty line.** It replies `ERROR: ERROR: Empty message.`. The thrown text already
  starts with `ERROR: `, and the handler adds another.
- **`remove` on a date that has no bucket.** It replies `no events`.

## Model

| member | source | states |
|---|---|---|
| Events.MkEvent | 23045724_TomBrophy_Server/src/main/java/com/mycompany/tombrophy_server/TomBrophy_Server.java:16-20 | The constructor trims all three fields. Fields that are already trimmed are kept exactly as given. |
| Events.MkEventKeepsMiddle | 23045724_TomBrophy_Server/src/main/java/com/mycompany/tombrophy_server/TomBrophy_Server.java:16-20 | Each stored field is a contiguous middle of the given text. Only chars at or below U+0020 are dropped, and only from the two ends, so " a " becomes "a". |
| Events.EqualEventsHashAlike | 23045724_TomBrophy_Server/src/main/java/com/mycompany/tombrophy_server/TomBrophy_Server.java:28-45 | Events that are equal ignoring case have the same hashCode. hashCode is Objects.hash over the lower-cased fields, with 32-bit wrap-around. |
| Events.EventEquals | 23045724_TomBrophy_Server/src/main/java/com/mycompany/tombrophy_server/TomBrophy_Server.java:28-45 | equals holds on identical events. Events it calls equal get the same hashCode, as the equals/hashCode contract requires. |
| Events.EventEqualsIsEquivalence | 23045724_TomBrophy_Server/src/main/java/com/mycompany/tombrophy_server/TomBrophy_Server.java:28-36 | equals is reflexive, symmetric and transitive. |
| Events.EqualsIgnoresCase | 23045724_TomBrophy_Server/src/main/java/com/mycompany/tombrophy_server/TomBrophy_Server.java:28-36 | An event equals its own lower-cased copy. |
| Events.StringHash | 23045724_TomBrophy_Server/src/main/java/com/mycompany/tombrophy_server/TomBrophy_Server.java:38-45 | String.hashCode (the 31-multiplier polynomial) always stays in the int range. |
| Events.EventHash | 23045724_TomBrophy_Server/src/main/java/com/mycompany/tombrophy_server/TomBrophy_Server.java:38-45 | Event.hashCode always stays in the int range. |
| Validation.ValidateDate | 23045724_TomBrophy_Server/src/main/java/com/mycompany/tombrophy_server/TomBrophy_Server.java:268-310 | An empty date gives "No Date Found.". A date passes exactly when its whitespace-separated words are a day that parseInt accepts in 1..31, a month name in any letter case, and a year that parseInt accepts in 1900..2100. |
| Validation.CheckDateWords | 23045724_TomBrophy_Server/src/main/java/com/mycompany/tombrophy_server/TomBrophy_Server.java:273-309 | The checks on the words of the date, in the code's order and with its messages. The result is Valid exactly when the words have the day-month-year shape. |
| Validation.AcceptsDayMonthYear | 23045724_TomBrophy_Server/src/main/java/com/mycompany/tombrophy_server/TomBrophy_Server.java:268-310 | Every "day month year" text built from an in-range day, a month name and an in-range year passes the check. |
| Validation.RejectsSingleWord | 23045724_TomBrophy_Server/src/main/java/com/mycompany/tombrophy_server/TomBrophy_Server.java:273-277 | A date with no whitespace inside is refused, with the "supposed to format the date" message that quotes it. |
| Validation.AcceptsLongDate | 23045724_TomBrophy_Server/src/main/java/com/mycompany/tombrophy_server/TomBrophy_Server.java:268-310 | "2 November 2025" is accepted. |
| Validation.AcceptsDateWords | 23045724_TomBrophy_Server/src/main/java/com/mycompany/tombrophy_server/TomBrophy_Server.java:268-310 | A date "d Month y" passes whenever parseInt reads d as a day in [1,31] and y as a year in [1900,2100]. Leading zeros and a sign are allowed, so the number text need not be canonical. |
| Validation.AcceptsPaddedDay | 23045724_TomBrophy_Server/src/main/java/com/mycompany/tombrophy_server/TomBrophy_Server.java:282-286 | "02 November 2025" is accepted, because parseInt reads "02" as 2. |
| Validation.RejectsIsoDate | 23045724_TomBrophy_Server/src/main/java/com/mycompany/tombrophy_server/TomBrophy_Server.java:273-277 | "2025-11-02" is refused. |
| Validation.MonthNameShape | 23045724_TomBrophy_Server/src/main/java/com/mycompany/tombrophy_server/TomBrophy_Server.java:292-299 | A month name is a non-empty word made only of letters. |
| Validation.ValidateTime | 23045724_TomBrophy_Server/src/main/java/com/mycompany/tombrophy_server/TomBrophy_Server.java:312-323 | An empty time gives "No Time Found.". A time passes exactly when "am" or "pm", in any letter case, occurs somewhere in it. |
| Validation.ValidateTimeExamples | 23045724_TomBrophy_Server/src/main/java/com/mycompany/tombrophy_server/TomBrophy_Server.java:312-323 | "6pm", "6:30pm", "6 PM" and even "xpm" pass. "18:00" fails. An empty time gives "No Time Found.". |
| Numbers.ParseInt | 23045724_TomBrophy_Server/src/main/java/com/mycompany/tombrophy_server/TomBrophy_Server.java:282-286 | Integer.parseInt. It returns a number exactly when the text is an optional sign followed by one or more digits whose signed value fits in an int, and then it returns that value. Leading zeros are allowed. |
| Numbers.ParseIntNonCanonical | 23045724_TomBrophy_Server/src/main/java/com/mycompany/tombrophy_server/TomBrophy_Server.java:282-286 | "02" reads as 2, "+5" as 5 and "-0" as 0, as parseInt reads them. |
| Numbers.Wrap32 | 23045724_TomBrophy_Server/src/main/java/com/mycompany/tombrophy_server/TomBrophy_Server.java:38-45 | The 32-bit two's-complement wrap-around of Java int arithmetic. The result is an int, and it differs from the exact value by a multiple of 2^32. |
| Numbers.ParseShowInt | 23045724_TomBrophy_Server/src/main/java/com/mycompany/tombrophy_server/TomBrophy_Server.java:282-286 | parseInt reads back every int written in decimal. |
| Numbers.ParseIntRejectsOverflow | 23045724_TomBrophy_Server/src/main/java/com/mycompany/tombrophy_server/TomBrophy_Server.java:301-306 | A digit string whose value exceeds the int range is refused, as parseInt throws NumberFormatException. |
| Buckets.InsertByTime | 23045724_TomBrophy_Server/src/main/java/com/mycompany/tombrophy_server/TomBrophy_Server.java:164-165 | Inserting into a bucket grows it by exactly one. |
| Buckets.InsertPermutes | 23045724_TomBrophy_Server/src/main/java/com/mycompany/tombrophy_server/TomBrophy_Server.java:164-165 | The inserted bucket holds exactly the old events plus the new one, counted with multiplicity. |
| Buckets.InsertKeepsSorted | 23045724_TomBrophy_Server/src/main/java/com/mycompany/tombrophy_server/TomBrophy_Server.java:164-165 | Inserting into a bucket sorted by time keeps it sorted. |
| Buckets.InsertIsStable | 23045724_TomBrophy_Server/src/main/java/com/mycompany/tombrophy_server/TomBrophy_Server.java:164-165 | Insertion puts the new event after every event with the same time, as a stable sort of the appended list does. |
| Buckets.InsertPosition | 23045724_TomBrophy_Server/src/main/java/com/mycompany/tombrophy_server/TomBrophy_Server.java:164-165 | On a sorted bucket, the new event lands right after the events that are not later than it and before the events that are later. |
| Buckets.InsertAtEnd | 23045724_TomBrophy_Server/src/main/java/com/mycompany/tombrophy_server/TomBrophy_Server.java:164-165 | An event that is not earlier than any event in the bucket goes at the end. |
| Buckets.SortByTime | 23045724_TomBrophy_Server/src/main/java/com/mycompany/tombrophy_server/TomBrophy_Server.java:165 | Collections.sort by time. The result is sorted by time and has the input's length. |
| Buckets.SortPermutes | 23045724_TomBrophy_Server/src/main/java/com/mycompany/tombrophy_server/TomBrophy_Server.java:165 | The sorted bucket is a permutation of the input. |
| Buckets.SortIsStable | 23045724_TomBrophy_Server/src/main/java/com/mycompany/tombrophy_server/TomBrophy_Server.java:165 | The sort is stable. Events with the same time keep their relative order. |
| Buckets.SortOfSorted | 23045724_TomBrophy_Server/src/main/java/com/mycompany/tombrophy_server/TomBrophy_Server.java:217 | Re-sorting a sorted bucket, as remove does, changes nothing. |
| Buckets.StableSortUnique | 23045724_TomBrophy_Server/src/main/java/com/mycompany/tombrophy_server/TomBrophy_Server.java:165 | Two sorted buckets with the same same-time subsequences are equal. So every stable sort by time, the library's included, gives the result that SortByTime gives. |
| Buckets.TimesSortAsText | 23045724_TomBrophy_Server/src/main/java/com/mycompany/tombrophy_server/TomBrophy_Server.java:165 | Times are compared as text, so "10am" sorts before "9am". |
| Buckets.AddToBucket | 23045724_TomBrophy_Server/src/main/java/com/mycompany/tombrophy_server/TomBrophy_Server.java:163-165 | Append then sort. The bucket grows by one and is sorted. It holds the old events plus the new one, and on a sorted bucket the result is the plain insertion. |
| Buckets.Matches | 23045724_TomBrophy_Server/src/main/java/com/mycompany/tombrophy_server/TomBrophy_Server.java:203-205 | The removal test compares each trimmed field ignoring case. For a stored (trimmed) event it holds exactly when Event.equals holds against the event built from the request. |
| Buckets.FirstMatch | 23045724_TomBrophy_Server/src/main/java/com/mycompany/tombrophy_server/TomBrophy_Server.java:200-211 | The iterator loop. The result is the index of the first matching event, or none when no event matches. |
| Buckets.RemoveFromBucket | 23045724_TomBrophy_Server/src/main/java/com/mycompany/tombrophy_server/TomBrophy_Server.java:200-217 | Nothing is removed exactly when no event matches. Otherwise the removed event matches, and the rest is one shorter, sorted, and holds exactly the other events. |
| Buckets.RemoveFromBucketTakesFirst | 23045724_TomBrophy_Server/src/main/java/com/mycompany/tombrophy_server/TomBrophy_Server.java:200-211 | The removed event is the first event of the bucket that matches. |
| Buckets.RemoveFromSorted | 23045724_TomBrophy_Server/src/main/java/com/mycompany/tombrophy_server/TomBrophy_Server.java:200-217 | On a sorted bucket, removal just cuts the first match out and leaves the rest in place. |
| Buckets.FormatEventList | 23045724_TomBrophy_Server/src/main/java/com/mycompany/tombrophy_server/TomBrophy_Server.java:244-266 | The reply is "no events" exactly when the bucket is empty. |
| Buckets.FormatSingle | 23045724_TomBrophy_Server/src/main/java/com/mycompany/tombrophy_server/TomBrophy_Server.java:244-266 | One event is listed as "date; time, description". |
| Buckets.FormatAppend | 23045724_TomBrophy_Server/src/main/java/com/mycompany/tombrophy_server/TomBrophy_Server.java:254-264 | Each further event adds "; time, description" after the previous ones, and the leading date stays the first event's. |
| Buckets.Groups | 23045724_TomBrophy_Server/src/main/java/com/mycompany/tombrophy_server/TomBrophy_Server.java:254-264 | The groups of a list reply start with the first event's "time, description" and end with the last event's. |
| Buckets.GroupsIsJoin | 23045724_TomBrophy_Server/src/main/java/com/mycompany/tombrophy_server/TomBrophy_Server.java:254-264 | The groups part of the reply is every event's "time, description", in bucket order, joined by "; ". |
| Buckets.FormatEventListIsJoin | 23045724_TomBrophy_Server/src/main/java/com/mycompany/tombrophy_server/TomBrophy_Server.java:244-266 | The list reply is "no events" for an empty bucket. Otherwise it is the first event's date, then "; ", then every event's "time, description" in bucket order, joined by "; ". |
| Store.AddEvent | 23045724_TomBrophy_Server/src/main/java/com/mycompany/tombrophy_server/TomBrophy_Server.java:161-166 | Add on the board, with computeIfAbsent. The date's bucket is created if it is missing. It grows by exactly one, gains exactly the new event, and is sorted. No other date changes. |
| Store.AddEventPreserves | 23045724_TomBrophy_Server/src/main/java/com/mycompany/tombrophy_server/TomBrophy_Server.java:161-166 | Adding keeps every bucket sorted. It keeps the board well formed when the event is storable and is filed under its own date. |
| Store.RemoveEvent | 23045724_TomBrophy_Server/src/main/java/com/mycompany/tombrophy_server/TomBrophy_Server.java:193-225 | Three outcomes. No bucket means the key is absent. No match means no event matches. Otherwise the first match is removed: the keys stay the same, that bucket shrinks by exactly one and stays sorted, and no other date changes. |
| Store.RemoveEventPreserves | 23045724_TomBrophy_Server/src/main/java/com/mycompany/tombrophy_server/TomBrophy_Server.java:193-225 | Removing keeps every bucket sorted and the board well formed. |
| Protocol.Fields | 23045724_TomBrophy_Server/src/main/java/com/mycompany/tombrophy_server/TomBrophy_Server.java:122-128 | The trimmed line is split into one to four pieces. Every piece but the last is free of ';', and joining the pieces with ';' gives back the trimmed line. |
| Protocol.ActionOf | 23045724_TomBrophy_Server/src/main/java/com/mycompany/tombrophy_server/TomBrophy_Server.java:129 | The action is the first field trimmed and lower-cased. It is equal, ignoring case, to the trimmed first field of the line. It has no leading or trailing blank and no upper-case letter. |
| Protocol.FieldOr | 23045724_TomBrophy_Server/src/main/java/com/mycompany/tombrophy_server/TomBrophy_Server.java:142-144 | A detail field is trimmed: a contiguous middle of the raw piece, with only chars at or below U+0020 dropped. A missing field is the empty string. |
| Protocol.ProcessMessage | 23045724_TomBrophy_Server/src/main/java/com/mycompany/tombrophy_server/TomBrophy_Server.java:121-241 | processMessage changes the board only on a non-blank add or remove line that has four fields and a date and time that pass the checks. |
| Protocol.AddCommand | 23045724_TomBrophy_Server/src/main/java/com/mycompany/tombrophy_server/TomBrophy_Server.java:147-182 | add returns normally only with four fields and a valid date and time. Its board is the board add with the constructed event. |
| Protocol.RemoveCommand | 23045724_TomBrophy_Server/src/main/java/com/mycompany/tombrophy_server/TomBrophy_Server.java:184-225 | remove returns normally only with four fields and a valid date and time. It changes the board only when an event was actually removed. |
| Protocol.Respond | 23045724_TomBrophy_Server/src/main/java/com/mycompany/tombrophy_server/TomBrophy_Server.java:94-100 | The handler catches the exception. Only an accepted add or remove changes the board. |
| ProtocolProperties.BlankLine | 23045724_TomBrophy_Server/src/main/java/com/mycompany/tombrophy_server/TomBrophy_Server.java:122-125 | A blank line gets "ERROR: ERROR: Empty message." and leaves the board unchanged. |
| ProtocolProperties.StopLine | 23045724_TomBrophy_Server/src/main/java/com/mycompany/tombrophy_server/TomBrophy_Server.java:129-134 | stop, in any letter case and whatever follows it, gets exactly "TERMINATE" and leaves the board unchanged. |
| ProtocolProperties.MissingDetails | 23045724_TomBrophy_Server/src/main/java/com/mycompany/tombrophy_server/TomBrophy_Server.java:136-138 | Any other line without a second field gets the malformed-message error and leaves the board unchanged. |
| ProtocolProperties.TooFewFields | 23045724_TomBrophy_Server/src/main/java/com/mycompany/tombrophy_server/TomBrophy_Server.java:147-150 | add or remove with two or three fields gets "ERROR: " plus the usage text, and the board is unchanged. |
| ProtocolProperties.BadDate | 23045724_TomBrophy_Server/src/main/java/com/mycompany/tombrophy_server/TomBrophy_Server.java:153-155 | add or remove with a bad date reports the date check's message, and the board is unchanged. |
| ProtocolProperties.BadTime | 23045724_TomBrophy_Server/src/main/java/com/mycompany/tombrophy_server/TomBrophy_Server.java:153-155 | add or remove with a valid date and a bad time reports the time check's message, and the board is unchanged. |
| ProtocolProperties.UnknownAction | 23045724_TomBrophy_Server/src/main/java/com/mycompany/tombrophy_server/TomBrophy_Server.java:238-239 | An unknown action gets "ERROR: Invalid command: " plus the lower-cased action, and the board is unchanged. |
| ProtocolProperties.ListLine | 23045724_TomBrophy_Server/src/main/java/com/mycompany/tombrophy_server/TomBrophy_Server.java:227-236 | list never changes the board and replies with the formatted bucket. The reply is "no events" exactly when that bucket is missing or empty. |
| ProtocolProperties.AddLine | 23045724_TomBrophy_Server/src/main/java/com/mycompany/tombrophy_server/TomBrophy_Server.java:147-182 | A successful add replies "date; time, description has been added" and adds the date key. That bucket grows by exactly one, gains exactly the trimmed event, and is sorted. No other date changes. |
| ProtocolProperties.RemoveLine | 23045724_TomBrophy_Server/src/main/java/com/mycompany/tombrophy_server/TomBrophy_Server.java:184-225 | remove has three outcomes: "no events" when there is no bucket; "Error: Event not found on date" with the board unchanged; or the stored first match removed and quoted, with that bucket one shorter and sorted and no other date changed. |
| ProtocolProperties.ErrorsKeepBoard | 23045724_TomBrophy_Server/src/main/java/com/mycompany/tombrophy_server/TomBrophy_Server.java:121-241 | Every line other than an accepted add or remove leaves the board unchanged. |
| ProtocolProperties.RespondPreservesInvariants | 23045724_TomBrophy_Server/src/main/java/com/mycompany/tombrophy_server/TomBrophy_Server.java:121-241 | Each invariant is kept on its own. A well-formed board stays well formed after any line, sorted or not, so a board loaded unsorted from a hand-edited file keeps it. A board whose buckets are all sorted stays sorted. |
| ProtocolProperties.TerminatesOnlyOnStop | 23045724_TomBrophy_Server/src/main/java/com/mycompany/tombrophy_server/TomBrophy_Server.java:103-107 | The connection loop ends, on a reply equal to TERMINATE ignoring case, exactly for a stop line. |
| ProtocolProperties.ReplyShapes | 23045724_TomBrophy_Server/src/main/java/com/mycompany/tombrophy_server/TomBrophy_Server.java:96-100 | Every reply is one of four shapes: TERMINATE for a stop line, "no events", a message starting with 'E', or a text containing ';'. |
| Persistence.ParseLine | 23045724_TomBrophy_Server/src/main/java/com/mycompany/tombrophy_server/TomBrophy_Server.java:380-392 | Reading one line. Any event it yields is storable: its fields are trimmed and its date and time hold no ';'. |
| Persistence.ParseAll | 23045724_TomBrophy_Server/src/main/java/com/mycompany/tombrophy_server/TomBrophy_Server.java:378-392 | Every line is read on its own, whatever the board holds: the i-th read is the read of the i-th line. |
| Persistence.EventLine | 23045724_TomBrophy_Server/src/main/java/com/mycompany/tombrophy_server/TomBrophy_Server.java:358 | The saved line "date; time; description". It has no contract of its own: EventLineSeparators and ParseEventLine state that the loader reads it back as the same event. |
| Persistence.EventLineSeparators | 23045724_TomBrophy_Server/src/main/java/com/mycompany/tombrophy_server/TomBrophy_Server.java:358 | Every saved line holds at least two ';', so the loader never skips it. |
| Persistence.KeyLines | 23045724_TomBrophy_Server/src/main/java/com/mycompany/tombrophy_server/TomBrophy_Server.java:350-359 | One line per event of the date's bucket, none for an empty bucket. Each holds at least two ';'. |
| Persistence.SaveLines | 23045724_TomBrophy_Server/src/main/java/com/mycompany/tombrophy_server/TomBrophy_Server.java:343-359 | Every line the save writes holds at least two ';'. |
| Persistence.SavedLinesAreRead | 23045724_TomBrophy_Server/src/main/java/com/mycompany/tombrophy_server/TomBrophy_Server.java:343-392 | The loader reads every line the save writes, and skips none. |
| Persistence.FileAllGrows | 23045724_TomBrophy_Server/src/main/java/com/mycompany/tombrophy_server/TomBrophy_Server.java:394-398 | Filing only appends. No key is lost, every old bucket stays a prefix of the new one, and a bucket that filing creates holds at least one event. |
| Persistence.FileAll | 23045724_TomBrophy_Server/src/main/java/com/mycompany/tombrophy_server/TomBrophy_Server.java:394-398 | Filing the read lines one by one in file order. It has no contract of its own: FileAllGrows states that it only appends, and FileBucket and LoadConcat state what it appends. |
| Persistence.LoadInto | 23045724_TomBrophy_Server/src/main/java/com/mycompany/tombrophy_server/TomBrophy_Server.java:371-404 | Loading into a board loses no key and keeps every existing bucket as a prefix of the new one. |
| Persistence.Load | 23045724_TomBrophy_Server/src/main/java/com/mycompany/tombrophy_server/TomBrophy_Server.java:371-404 | Loading at start-up gives a well-formed board with no empty bucket. |
| Persistence.SkipsUnparsable | 23045724_TomBrophy_Server/src/main/java/com/mycompany/tombrophy_server/TomBrophy_Server.java:380-386 | A line is skipped exactly when it holds fewer than two ';'. Blank lines, lines with no ';' and lines with one ';' are skipped. Every line with two or more ';' yields an event. |
| Persistence.SkipsOneSeparator | 23045724_TomBrophy_Server/src/main/java/com/mycompany/tombrophy_server/TomBrophy_Server.java:384-386 | "a; b" is skipped and "a; b; c" is read. |
| Persistence.ParseEventLine | 23045724_TomBrophy_Server/src/main/java/com/mycompany/tombrophy_server/TomBrophy_Server.java:357-359 | A line that save writes for a storable event reads back as that event. This includes an empty description, whose trailing space the trim removes. |
| Persistence.FileEvent | 23045724_TomBrophy_Server/src/main/java/com/mycompany/tombrophy_server/TomBrophy_Server.java:394-398 | A line that was read is appended to the end of its date's bucket, with no re-sort. A skipped line changes nothing. No other date changes. |
| Persistence.LoadKeepsWellFormed | 23045724_TomBrophy_Server/src/main/java/com/mycompany/tombrophy_server/TomBrophy_Server.java:371-404 | Loading any file into a well-formed board gives a well-formed board, and no key is lost. |
| Persistence.LoadConcat | 23045724_TomBrophy_Server/src/main/java/com/mycompany/tombrophy_server/TomBrophy_Server.java:379-399 | Loading two pieces of a file one after the other is the same as loading the whole file. |
| Persistence.LoadBucket | 23045724_TomBrophy_Server/src/main/java/com/mycompany/tombrophy_server/TomBrophy_Server.java:379-399 | Loading the saved lines of one date's events appends them, in order, to that date's bucket. |
| Persistence.SaveLoadRoundTrip | 23045724_TomBrophy_Server/src/main/java/com/mycompany/tombrophy_server/TomBrophy_Server.java:343-404 | Save a well-formed board, with the keys in any order, then load the file into an empty board. The result is every non-empty bucket, sorted by time, and nothing else. |
| Persistence.SaveLoadSortedBoard | 23045724_TomBrophy_Server/src/main/java/com/mycompany/tombrophy_server/TomBrophy_Server.java:343-404 | When every bucket is sorted, as adds and removes keep them, the round trip gives back the board minus its empty buckets. |
| Persistence.LoadKeepsFileOrder | 23045724_TomBrophy_Server/src/main/java/com/mycompany/tombrophy_server/TomBrophy_Server.java:394-398 | Loading does not sort. Two lines for one date written out of time order load as an unsorted bucket. |
| Text.TrimIsCore | 23045724_TomBrophy_Server/src/main/java/com/mycompany/tombrophy_server/TomBrophy_Server.java:17-19 | String.trim keeps a contiguous middle part. Everything it drops is a char at or below U+0020. |
| Text.Trim | 23045724_TomBrophy_Server/src/main/java/com/mycompany/tombrophy_server/TomBrophy_Server.java:17-19 | String.trim. The result neither starts nor ends with a char at or below U+0020. |
| Text.TrimKeepsCount | 23045724_TomBrophy_Server/src/main/java/com/mycompany/tombrophy_server/TomBrophy_Server.java:380-384 | Trim keeps every char above U+0020 as many times as it occurs, so trimming a line keeps its ';'. |
| Text.TrimIdempotent | 23045724_TomBrophy_Server/src/main/java/com/mycompany/tombrophy_server/TomBrophy_Server.java:17-19 | Trimming twice is the same as trimming once. |
| Text.CompareTo | 23045724_TomBrophy_Server/src/main/java/com/mycompany/tombrophy_server/TomBrophy_Server.java:165 | String.compareTo is zero exactly on equal strings. |
| Text.LexLeTotal | 23045724_TomBrophy_Server/src/main/java/com/mycompany/tombrophy_server/TomBrophy_Server.java:165 | The comparator order is total and antisymmetric. |
| Text.LexLeIsLexicographic | 23045724_TomBrophy_Server/src/main/java/com/mycompany/tombrophy_server/TomBrophy_Server.java:165 | The comparator order is lexicographic: a comes first when it is a prefix of b, or when the first char where they differ is smaller in a. |
| Text.LexLeTransitive | 23045724_TomBrophy_Server/src/main/java/com/mycompany/tombrophy_server/TomBrophy_Server.java:165 | The comparator order is transitive. |
| Text.Split | 23045724_TomBrophy_Server/src/main/java/com/mycompany/tombrophy_server/TomBrophy_Server.java:128 | split(";", n) gives one to n pieces. Every piece but the last is free of ';', and so is the last when there are fewer than n pieces. |
| Text.SplitJoins | 23045724_TomBrophy_Server/src/main/java/com/mycompany/tombrophy_server/TomBrophy_Server.java:128 | Joining the pieces of split(";", n) with ';' gives back the input, so splitting loses nothing. |
| Text.SplitCount | 23045724_TomBrophy_Server/src/main/java/com/mycompany/tombrophy_server/TomBrophy_Server.java:384-386 | split(";", n) gives one piece more than there are ';', up to n pieces. |
| Text.SplitAtFirst | 23045724_TomBrophy_Server/src/main/java/com/mycompany/tombrophy_server/TomBrophy_Server.java:384 | A string that is free of ';' and followed by ';' becomes the first piece, and the rest is split with one piece fewer. |
| Text.Words | 23045724_TomBrophy_Server/src/main/java/com/mycompany/tombrophy_server/TomBrophy_Server.java:273 | split("\\s+") on a non-empty trimmed string gives non-empty words with no whitespace in them. Words gives no word exactly when the string is all whitespace; for a trimmed string that is only the empty string, which Java splits into [""] instead. |
| Text.WordsOfUnwords | 23045724_TomBrophy_Server/src/main/java/com/mycompany/tombrophy_server/TomBrophy_Server.java:273 | Splitting words that were joined with single spaces gives back those words. |
| Text.WordsOfSpaced | 23045724_TomBrophy_Server/src/main/java/com/mycompany/tombrophy_server/TomBrophy_Server.java:273 | Any non-empty run of whitespace chars separates two words, and runs before the first word or after the last add no piece. Splitting gives back exactly the words, however they were spaced. |
| Text.WordsOfSpacedDate | 23045724_TomBrophy_Server/src/main/java/com/mycompany/tombrophy_server/TomBrophy_Server.java:273 | "2  November\t2025" splits into "2", "November" and "2025". |
| Text.Contains | 23045724_TomBrophy_Server/src/main/java/com/mycompany/tombrophy_server/TomBrophy_Server.java:318 | contains is true exactly when the substring occurs at some position. |
| Text.Lower | 23045724_TomBrophy_Server/src/main/java/com/mycompany/tombrophy_server/TomBrophy_Server.java:129 | toLowerCase on ASCII. The length is kept, each upper-case letter becomes the letter 32 code points above it, and every other char is kept. |
| Text.EqualsIgnoreCase | 23045724_TomBrophy_Server/src/main/java/com/mycompany/tombrophy_server/TomBrophy_Server.java:35 | equalsIgnoreCase on ASCII. Equal strings are equal ignoring case, strings that are equal ignoring case have the same length, and two strings without upper-case letters are equal ignoring case only when they are equal. |
| Text.EqualsIgnoreCaseIsCharwise | 23045724_TomBrophy_Server/src/main/java/com/mycompany/tombrophy_server/TomBrophy_Server.java:35 | equalsIgnoreCase compares char by char. Two strings are equal ignoring case exactly when they have the same length and, at every index, the chars are equal or are an upper-case ASCII letter and its lower-case partner. |
| Text.LowerFoldsCase | 23045724_TomBrophy_Server/src/main/java/com/mycompany/tombrophy_server/TomBrophy_Server.java:129 | A lower-cased string is equal, ignoring case, to the original. |

## Left out

- Sockets, the per-client threads, the welcome line and the `synchronized` blocks are not
  modelled. Each line is one pure step from a board to a board plus a reply, so
  concurrent clients are not modelled.
- File I/O is not modelled. The file is a sequence of lines, and a failed read or write
  (which the code only logs) is not modelled. Descriptions cannot hold line breaks,
  because each one arrives as a single line, so splitting the file into lines is not
  modelled either.
- `parseDate` and `DATE_FMTS` are replaced by a parameter. They only fix the order in which save
  writes the dates. `SaveLines` takes any duplicate-free listing of the keys, and the
  round trip is proved for every such order.
- `loadEventsFromFile` returns early when the file is missing. That case is loading an
  empty line sequence.
- Unicode is not modelled. Case folding is ASCII only, and the model assumes a default
  locale that lower-cases ASCII the way `Locale.ROOT` does. Under a Turkish or
  Azerbaijani default locale `toLowerCase()` maps 'I' to a dotless 'ı', so "LIST" would
  become an unknown command; the model does not cover that. `Integer.parseInt` accepts ASCII digits only, not other
  Unicode digits. `compareTo` compares Dafny chars, which differ from UTF-16 code units
  only outside the Basic Multilingual Plane.
- Events.EqualEventsHashAlike: the agreement of `equals` and `hashCode` is proved for
  ASCII case folding only. In every locale, Java's `equalsIgnoreCase` also matches chars
  whose upper-case forms agree, such as 'ı' (U+0131) with 'i', or 'ſ' (U+017F) with 's'.
  `toLowerCase()` keeps those pairs apart. So `Event("a", "6pm", "ı")` equals
  `Event("a", "6pm", "i")` but hashes differently. Under a tr/az default locale,
  `toLowerCase()` also splits 'I' from 'i'. Neither case is modelled.
- Text.Words: on the empty string Java's `split("\\s+")` gives `[""]`, one empty piece,
  while `Words` gives `[]`. Only a non-empty trimmed string is split the same way. The
  date check never splits the empty string, because it answers "No Date Found." first;
  and neither result has three pieces, so the reply would be the same anyway.
- `Event.toString` is not modelled separately. It has the same format as the saved line
  (`Persistence.EventLine`).
- The client, `TomBrophy_ClientRun` and `HTTPImporter` are not part of this model.
- Protocol.ProcessMessage: the contract states only which lines can change the board.
  The reply of each kind of line is stated by the lemmas in `ProtocolProperties`.

=== FILE: Buckets.dfy ===
/** A bucket is the list of events stored under one date key. The server keeps it sorted
    by the time text with Collections.sort and Comparator.comparing(e -> e.time), a stable
    sort under String.compareTo. */
module Buckets {
  import opened Common
  import opened Text
  import opened Events

  type Bucket = seq<Event>

  /** The comparator: a's time does not come after b's. */
  predicate TimeLe(a: Event, b: Event) {
    LexLe(a.time, b.time)
  }

  predicate SortedByTime(b: Bucket) {
    forall i, j :: 0 <= i < j < |b| ==> TimeLe(b[i], b[j])
  }

  /** The events of b whose time is exactly t, in bucket order. A sort is stable when it
      leaves every one of these subsequences as it was. */
  function WithTime(b: Bucket, t: string): Bucket {
    if b == [] then [] else (if b[0].time == t then [b[0]] else []) + WithTime(b[1..], t)
  }

  lemma {:induction false} WithTimeAppend(a: Bucket, b: Bucket, t: string)
    ensures WithTime(a + b, t) == WithTime(a, t) + WithTime(b, t)
  {
    if a == [] {
      assert a + b == b;
    } else {
      var ab := a + b;
      var head := if a[0].time == t then [a[0]] else [];
      assert ab[0] == a[0];
      assert ab[1..] == a[1..] + b;
      WithTimeAppend(a[1..], b, t);
      assert WithTime(ab, t) == head + WithTime(a[1..] + b, t);
      assert WithTime(a, t) == head + WithTime(a[1..], t);
      assert head + (WithTime(a[1..], t) + WithTime(b, t)) == (head + WithTime(a[1..], t)) + WithTime(b, t);
    }
  }

  lemma {:induction false} WithTimeMember(b: Bucket, t: string, x: Event)
    ensures x in WithTime(b, t) <==> x in b && x.time == t
  {
    if b != [] {
      WithTimeMember(b[1..], t, x);
      assert b == [b[0]] + b[1..];
    }
  }

  lemma {:induction false} WithTimeNone(b: Bucket, t: string)
    requires forall i :: 0 <= i < |b| ==> b[i].time != t
    ensures WithTime(b, t) == []
  {
    if b != [] {
      WithTimeNone(b[1..], t);
    }
  }

  lemma SortedTail(b: Bucket)
    requires SortedByTime(b) && b != []
    ensures SortedByTime(b[1..])
  {
    forall i, j | 0 <= i < j < |b| - 1 ensures TimeLe(b[1..][i], b[1..][j]) {
      assert b[1..][i] == b[i + 1] && b[1..][j] == b[j + 1];
    }
  }

  // ---------------------------------------------------------------- sorting

  /** Cutting out the element at i leaves the other elements. */
  lemma CutOut(b: Bucket, i: nat)
    requires i < |b|
    ensures multiset(b[..i] + b[i + 1..]) + multiset{b[i]} == multiset(b)
  {
    assert b == b[..i] + [b[i]] + b[i + 1..];
  }

  /** Inserts e after every event whose time is not after e's: on a sorted bucket this is
      what a stable sort does with an appended event. */
  function InsertByTime(b: Bucket, e: Event): (r: Bucket)
    ensures |r| == |b| + 1
  {
    if b == [] || !TimeLe(b[0], e) then [e] + b
    else [b[0]] + InsertByTime(b[1..], e)
  }

  /** Inserting adds exactly e: the result holds the old events and e, nothing else. */
  lemma {:induction false} InsertPermutes(b: Bucket, e: Event)
    ensures multiset(InsertByTime(b, e)) == multiset(b) + multiset{e}
  {
    if b != [] && TimeLe(b[0], e) {
      InsertPermutes(b[1..], e);
      assert b == [b[0]] + b[1..];
    }
  }

  lemma {:induction false} InsertKeepsSorted(b: Bucket, e: Event)
    requires SortedByTime(b)
    ensures SortedByTime(InsertByTime(b, e))
  {
    var r := InsertByTime(b, e);
    if b == [] {
    } else if !TimeLe(b[0], e) {
      LexLeTotal(b[0].time, e.time);
      forall j | 0 <= j < |b| ensures TimeLe(e, b[j]) {
        if j > 0 {
          LexLeTransitive(e.time, b[0].time, b[j].time);
        }
      }
    } else {
      var tail := InsertByTime(b[1..], e);
      InsertKeepsSorted(b[1..], e);
      InsertPermutes(b[1..], e);
      forall j | 0 <= j < |tail| ensures TimeLe(b[0], tail[j]) {
        assert tail[j] in multiset(tail);
        assert tail[j] == e || tail[j] in b[1..];
      }
    }
  }

  /** Inserting keeps every same-time subsequence and puts e after the events that share
      its time. */
  lemma {:induction false} InsertIsStable(b: Bucket, e: Event, t: string)
    requires SortedByTime(b)
    ensures WithTime(InsertByTime(b, e), t) == WithTime(b, t) + (if e.time == t then [e] else [])
  {
    if b == [] {
    } else if !TimeLe(b[0], e) {
      forall i | 0 <= i < |b| ensures b[i].time != e.time {
        if i > 0 {
          assert TimeLe(b[0], b[i]);
        }
      }
      if e.time == t {
        WithTimeNone(b, t);
      }
      assert InsertByTime(b, e)[1..] == b;
    } else {
      var x := b[0];
      var tail := InsertByTime(b[1..], e);
      var h := if x.time == t then [x] else [];
      var last := if e.time == t then [e] else [];
      InsertIsStable(b[1..], e, t);
      assert WithTime(tail, t) == WithTime(b[1..], t) + last;
      assert InsertByTime(b, e) == [x] + tail;
      assert ([x] + tail)[0] == x && ([x] + tail)[1..] == tail;
      assert WithTime([x] + tail, t) == h + WithTime(tail, t);
      assert WithTime(b, t) == h + WithTime(b[1..], t);
      assert h + (WithTime(b[1..], t) + last) == (h + WithTime(b[1..], t)) + last;
    }
  }

  /** An event whose time is not before any event of a sorted bucket goes to the end. */
  lemma {:induction false} InsertAtEnd(b: Bucket, e: Event)
    requires forall i :: 0 <= i < |b| ==> TimeLe(b[i], e)
    ensures InsertByTime(b, e) == b + [e]
  {
    if b != [] {
      InsertAtEnd(b[1..], e);
      assert b == [b[0]] + b[1..];
    }
  }

  /** On a sorted bucket, InsertByTime splits the bucket at the first event whose time
      comes after e's. */
  lemma {:induction false} InsertPosition(b: Bucket, e: Event) returns (k: nat)
    requires SortedByTime(b)
    ensures k <= |b| && InsertByTime(b, e) == b[..k] + [e] + b[k..]
    ensures forall i :: 0 <= i < k ==> TimeLe(b[i], e)
    ensures forall i :: k <= i < |b| ==> !TimeLe(b[i], e)
  {
    if b == [] {
      k := 0;
    } else if !TimeLe(b[0], e) {
      k := 0;
      forall i | 0 < i < |b| ensures !TimeLe(b[i], e) {
        if TimeLe(b[i], e) {
          LexLeTransitive(b[0].time, b[i].time, e.time);
        }
      }
    } else {
      SortedTail(b);
      var k' := InsertPosition(b[1..], e);
      k := k' + 1;
      forall i | 0 < i < k ensures TimeLe(b[i], e) {
        assert b[i] == b[1..][i - 1];
      }
      forall i | k <= i < |b| ensures !TimeLe(b[i], e) {
        assert b[i] == b[1..][i - 1];
      }
      assert InsertByTime(b, e) == [b[0]] + InsertByTime(b[1..], e);
      ConsAround(b[0], b[1..], e, k');
      assert b == [b[0]] + b[1..];
    }
  }

  /** Putting x in front of rest[..k] + [e] + rest[k..] cuts x + rest one place later. */
  lemma ConsAround<T>(x: T, rest: seq<T>, e: T, k: nat)
    requires k <= |rest|
    ensures [x] + (rest[..k] + [e] + rest[k..]) == ([x] + rest)[..k + 1] + [e] + ([x] + rest)[k + 1..]
  {
    var xs := [x] + rest;
    assert xs[..k + 1] == [x] + rest[..k];
    assert xs[k + 1..] == rest[k..];
  }

  /** Collections.sort by time: a stable insertion sort, taking the events in order. */
  function SortByTime(s: Bucket): (r: Bucket)
    ensures SortedByTime(r)
    ensures |r| == |s|
  {
    if s == [] then []
    else
      var init := SortByTime(s[..|s| - 1]);
      InsertKeepsSorted(init, s[|s| - 1]);
      InsertByTime(init, s[|s| - 1])
  }

  /** The sort is a permutation: it keeps every event, as often as it occurs. */
  lemma {:induction false} SortPermutes(s: Bucket)
    ensures multiset(SortByTime(s)) == multiset(s)
  {
    if s != [] {
      var init, last := s[..|s| - 1], s[|s| - 1];
      SortPermutes(init);
      InsertPermutes(SortByTime(init), last);
      assert s == init + [last];
    }
  }

  /** The sort is stable: events with equal times keep their relative order. */
  lemma {:induction false} SortIsStable(s: Bucket, t: string)
    ensures WithTime(SortByTime(s), t) == WithTime(s, t)
  {
    if s != [] {
      var init := s[..|s| - 1];
      var e := s[|s| - 1];
      SortIsStable(init, t);
      InsertIsStable(SortByTime(init), e, t);
      assert s == init + [e];
      WithTimeAppend(init, [e], t);
    }
  }

  /** Sorting a sorted bucket changes nothing; so re-sorting after a removal, or after
      loading a file written in sorted order, is the identity. */
  lemma {:induction false} SortOfSorted(s: Bucket)
    requires SortedByTime(s)
    ensures SortByTime(s) == s
  {
    if s != [] {
      var init, last := s[..|s| - 1], s[|s| - 1];
      assert SortedByTime(init) by {
        forall i, j | 0 <= i < j < |init| ensures TimeLe(init[i], init[j]) {
          assert init[i] == s[i] && init[j] == s[j];
        }
      }
      SortOfSorted(init);
      forall i | 0 <= i < |init| ensures TimeLe(init[i], last) {
        assert init[i] == s[i];
      }
      InsertAtEnd(init, last);
      assert SortByTime(s) == InsertByTime(SortByTime(init), last);
      assert s == init + [last];
    }
  }

  /** Times are ordered as text, not by the clock: "10am" sorts before "9am", since '1'
      comes before '9'. */
  lemma TimesSortAsText(date: string, first: string, second: string)
    ensures var late := Event(date, "9am", first);
            var early := Event(date, "10am", second);
            SortByTime([late, early]) == [early, late]
  {
    var late := Event(date, "9am", first);
    var early := Event(date, "10am", second);
    assert CompareTo("9am", "10am") > 0;
    assert [late, early][..1] == [late];
    assert [late][..0] == [];
    assert SortByTime([late]) == [late];
    assert InsertByTime([late], early) == [early, late];
  }

  /** A sorted bucket is determined by its same-time subsequences. Hence every stable sort
      by time (the library's merge sort included) gives the result SortByTime gives. */
  lemma {:induction false} StableSortUnique(a: Bucket, b: Bucket)
    requires SortedByTime(a) && SortedByTime(b)
    requires forall t :: WithTime(a, t) == WithTime(b, t)
    ensures a == b
    decreases |a|
  {
    if a != [] && b != [] {
      var x, y := a[0], b[0];
      WithTimeMember(a, x.time, x);
      WithTimeMember(b, x.time, x);
      WithTimeMember(b, y.time, y);
      WithTimeMember(a, y.time, y);
      var j :| 0 <= j < |b| && b[j] == x;
      var i :| 0 <= i < |a| && a[i] == y;
      assert TimeLe(y, x) by {
        if j > 0 {
          assert TimeLe(b[0], b[j]);
        }
      }
      assert TimeLe(x, y) by {
        if i > 0 {
          assert TimeLe(a[0], a[i]);
        }
      }
      LexLeTotal(x.time, y.time);
      assert x == y by {
        assert WithTime(a, x.time)[0] == x;
        assert WithTime(b, x.time)[0] == y;
      }
      forall t ensures WithTime(a[1..], t) == WithTime(b[1..], t) {
        var h := if x.time == t then [x] else [];
        assert WithTime(a, t) == h + WithTime(a[1..], t);
        assert WithTime(b, t) == h + WithTime(b[1..], t);
        assert (h + WithTime(a[1..], t))[|h|..] == WithTime(a[1..], t);
        assert (h + WithTime(b[1..], t))[|h|..] == WithTime(b[1..], t);
      }
      StableSortUnique(a[1..], b[1..]);
      assert a == [x] + a[1..] && b == [y] + b[1..];
    } else if a != [] {
      WithTimeMember(a, a[0].time, a[0]);
      WithTimeMember(b, a[0].time, a[0]);
    } else if b != [] {
      WithTimeMember(b, b[0].time, b[0]);
      WithTimeMember(a, b[0].time, b[0]);
    }
  }

  /** The add step: append, then sort. On a sorted bucket that is the same as inserting
      the event after every event whose time does not come after it. */
  function AddToBucket(b: Bucket, e: Event): (r: Bucket)
    ensures SortedByTime(r)
    ensures |r| == |b| + 1 && multiset(r) == multiset(b) + multiset{e}
    ensures SortedByTime(b) ==> r == InsertByTime(b, e)
  {
    assert (b + [e])[..|b|] == b;
    SortPermutes(b + [e]);
    if SortedByTime(b) then SortOfSorted(b); SortByTime(b + [e]) else SortByTime(b + [e])
  }

  // ---------------------------------------------------------------- removal

  /** The removal test: each field, trimmed, equal to the request's ignoring case. For a
      stored (trimmed) event it is Event.equals against the event the request describes. */
  predicate Matches(e: Event, date: string, time: string, description: string): (r: bool)
    ensures IsTrimmedEvent(e) ==> (r <==> EventEquals(e, MkEvent(date, time, description)))
  {
    TrimOfTrimmedFields(e.date, e.time, e.description);
    && EqualsIgnoreCase(Trim(e.date), Trim(date))
    && EqualsIgnoreCase(Trim(e.time), Trim(time))
    && EqualsIgnoreCase(Trim(e.description), Trim(description))
  }

  /** The index of the first element satisfying p, scanning from the front. */
  function FirstIndex<T>(s: seq<T>, p: T -> bool): (r: Option<nat>)
    ensures r.None? <==> forall i :: 0 <= i < |s| ==> !p(s[i])
    ensures r.Some? ==> r.value < |s| && p(s[r.value])
    ensures r.Some? ==> forall i :: 0 <= i < r.value ==> !p(s[i])
  {
    if s == [] then None
    else if p(s[0]) then Some(0)
    else
      match FirstIndex(s[1..], p)
      case None => None
      case Some(i) => Some(i + 1)
  }

  /** The position of the event the remove command deletes: the first match. */
  function FirstMatch(b: Bucket, date: string, time: string, description: string): (r: Option<nat>)
    ensures r.None? <==> forall i :: 0 <= i < |b| ==> !Matches(b[i], date, time, description)
    ensures r.Some? ==> r.value < |b| && Matches(b[r.value], date, time, description)
    ensures r.Some? ==> forall i :: 0 <= i < r.value ==> !Matches(b[i], date, time, description)
  {
    FirstIndex(b, e => Matches(e, date, time, description))
  }

  /** The remove step: delete the first match and re-sort what is left. None when nothing
      matches; otherwise the removed event and the new bucket, which is one shorter, holds
      the same events but that one, and is sorted. */
  function RemoveFromBucket(b: Bucket, date: string, time: string, description: string)
    : (r: Option<(Event, Bucket)>)
    ensures r.None? <==> FirstMatch(b, date, time, description).None?
    ensures r.Some? ==> Matches(r.value.0, date, time, description)
    ensures r.Some? ==> |r.value.1| == |b| - 1 && multiset(r.value.1) + multiset{r.value.0} == multiset(b)
    ensures r.Some? ==> SortedByTime(r.value.1)
  {
    match FirstMatch(b, date, time, description)
    case None => None
    case Some(i) =>
      CutOut(b, i);
      SortPermutes(b[..i] + b[i + 1..]);
      Some((b[i], SortByTime(b[..i] + b[i + 1..])))
  }

  lemma RemoveFromBucketTakesFirst(b: Bucket, date: string, time: string, description: string)
    requires RemoveFromBucket(b, date, time, description).Some?
    ensures FirstMatch(b, date, time, description).Some?
    ensures RemoveFromBucket(b, date, time, description).value.0 == b[FirstMatch(b, date, time, description).value]
  {
  }

  /** On a sorted bucket the re-sort does nothing: the first match is cut out and every
      other event stays where it was. */
  lemma RemoveFromSorted(b: Bucket, date: string, time: string, description: string)
    requires SortedByTime(b)
    requires FirstMatch(b, date, time, description).Some?
    ensures var i := FirstMatch(b, date, time, description).value;
            RemoveFromBucket(b, date, time, description) == Some((b[i], b[..i] + b[i + 1..]))
  {
    var i := FirstMatch(b, date, time, description).value;
    CutOutKeepsSorted(b, i);
    SortOfSorted(b[..i] + b[i + 1..]);
  }

  /** Cutting one event out of a sorted bucket leaves it sorted. */
  lemma CutOutKeepsSorted(b: Bucket, i: int)
    requires SortedByTime(b) && 0 <= i < |b|
    ensures SortedByTime(b[..i] + b[i + 1..])
  {
    var rest := b[..i] + b[i + 1..];
    forall p, q | 0 <= p < q < |rest| ensures TimeLe(rest[p], rest[q]) {
      var p' := if p < i then p else p + 1;
      var q' := if q < i then q else q + 1;
      assert rest[p] == b[p'] && rest[q] == b[q'];
    }
  }

  // ---------------------------------------------------------------- formatting

  /** One "time, description" group of a list reply. */
  function Group(e: Event): string {
    e.time + ", " + e.description
  }

  /** The groups of a non-empty bucket joined by "; ". */
  function Groups(events: Bucket): (r: string)
    requires events != []
    ensures Group(events[0]) <= r
    ensures |Group(events[|events| - 1])| <= |r|
    ensures r[|r| - |Group(events[|events| - 1])|..] == Group(events[|events| - 1])
  {
    if |events| == 1 then Group(events[0])
    else Groups(events[..|events| - 1]) + "; " + Group(events[|events| - 1])
  }

  /** formatEventList: "no events" for an absent or empty bucket, otherwise the first
      event's date, "; ", and the groups in bucket order. The reply is "no events" exactly
      when there is nothing to list. */
  function FormatEventList(events: Bucket): (r: string)
    ensures r == "no events" <==> events == []
  {
    if events == [] then "no events"
    else
      var r := events[0].date + "; " + Groups(events);
      assert r[|events[0].date|] == ';';
      r
  }

  /** The groups of a bucket, one per event, in bucket order. */
  function GroupList(events: Bucket): (r: seq<string>)
    ensures |r| == |events|
    ensures forall i :: 0 <= i < |events| ==> r[i] == Group(events[i])
  {
    seq(|events|, i requires 0 <= i < |events| => Group(events[i]))
  }

  /** Groups is the groups of the events joined by "; ". */
  lemma {:induction false} GroupsIsJoin(events: Bucket)
    requires events != []
    ensures Groups(events) == JoinWith(GroupList(events), "; ")
  {
    if |events| > 1 {
      var init := events[..|events| - 1];
      var last := Group(events[|events| - 1]);
      GroupsIsJoin(init);
      assert GroupList(events) == GroupList(init) + [last];
      JoinWithSnoc(GroupList(init), last, "; ");
    }
  }

  /** The list reply is "no events", or the first event's date followed by every
      event's "time, description", each after "; ". */
  lemma FormatEventListIsJoin(events: Bucket)
    ensures FormatEventList(events) ==
              if events == [] then "no events"
              else events[0].date + "; " + JoinWith(GroupList(events), "; ")
  {
    if events != [] {
      GroupsIsJoin(events);
    }
  }

  /** Listing a bucket with one more event at the end extends the reply by one group. */
  lemma FormatAppend(b: Bucket, e: Event)
    requires b != []
    ensures FormatEventList(b + [e]) == FormatEventList(b) + "; " + Group(e)
  {
    assert (b + [e])[..|b|] == b;
    assert (b + [e])[0] == b[0];
  }

  lemma FormatSingle(e: Event)
    ensures FormatEventList([e]) == e.date + "; " + e.time + ", " + e.description
  {
  }
}

=== FILE: Common.dfy ===
/** Small shared datatypes. */
module Common {

  /** An optional value, for lookups that may find nothing. */
  datatype Option<T> = None | Some(value: T)

  /** The result of a Java method that either returns a value or throws a checked exception
      carrying a message. */
  datatype Outcome<T> = Returned(value: T) | Thrown(message: string)
}

=== FILE: Events.dfy ===
/** The Event entity: three text fields, trimmed on construction, compared ignoring case. */
module Events {
  import opened Text
  import Numbers

  /** One scheduled item. The server never builds one without going through MkEvent. */
  datatype Event = Event(date: string, time: string, description: string)

  predicate IsTrimmedEvent(e: Event) {
    IsTrimmed(e.date) && IsTrimmed(e.time) && IsTrimmed(e.description)
  }

  /** The constructor: every field is trimmed, and fields that are trimmed already are
      kept as given. MkEventKeepsMiddle says what is left of an untrimmed field. */
  function MkEvent(date: string, time: string, description: string): (e: Event)
    ensures IsTrimmedEvent(e)
    ensures (IsTrimmed(date) && IsTrimmed(time) && IsTrimmed(description)) ==>
              e == Event(date, time, description)
  {
    TrimOfTrimmedFields(date, time, description);
    Event(Trim(date), Trim(time), Trim(description))
  }

  /** Each field of a new event is the middle of the given text: only chars at or below
      U+0020 are dropped, and only from the two ends. */
  lemma MkEventKeepsMiddle(date: string, time: string, description: string)
    ensures exists lo :: IsCoreOf(date, lo, MkEvent(date, time, description).date)
    ensures exists lo :: IsCoreOf(time, lo, MkEvent(date, time, description).time)
    ensures exists lo :: IsCoreOf(description, lo, MkEvent(date, time, description).description)
  {
    var e := MkEvent(date, time, description);
    assert e.date == Trim(date) && e.time == Trim(time) && e.description == Trim(description);
    TrimIsCore(date);
    TrimIsCore(time);
    TrimIsCore(description);
  }

  lemma TrimOfTrimmedFields(date: string, time: string, description: string)
    ensures IsTrimmed(date) ==> Trim(date) == date
    ensures IsTrimmed(time) ==> Trim(time) == time
    ensures IsTrimmed(description) ==> Trim(description) == description
  {
    if IsTrimmed(date) { TrimOfTrimmed(date); }
    if IsTrimmed(time) { TrimOfTrimmed(time); }
    if IsTrimmed(description) { TrimOfTrimmed(description); }
  }

  /** Event.equals: all three fields equal ignoring case. Equal events hash alike, as
      the contract of hashCode demands. */
  predicate EventEquals(a: Event, b: Event): (r: bool)
    ensures a == b ==> r
    ensures r ==> EventHash(a) == EventHash(b)
  {
    && EqualsIgnoreCase(a.date, b.date)
    && EqualsIgnoreCase(a.time, b.time)
    && EqualsIgnoreCase(a.description, b.description)
  }

  /** String.hashCode: h = 31 * h + c over the chars, in 32-bit arithmetic. */
  function StringHash(s: string): (h: int)
    ensures Numbers.InIntRange(h)
  {
    if s == [] then 0 else Numbers.Wrap32(31 * StringHash(s[..|s| - 1]) + s[|s| - 1] as int)
  }

  /** Event.hashCode: Objects.hash of the three lower-cased fields, that is
      31 * (31 * (31 * 1 + h1) + h2) + h3 in 32-bit arithmetic. */
  function EventHash(e: Event): (h: int)
    ensures Numbers.InIntRange(h)
  {
    var h1 := Numbers.Wrap32(31 + StringHash(Lower(e.date)));
    var h2 := Numbers.Wrap32(31 * h1 + StringHash(Lower(e.time)));
    Numbers.Wrap32(31 * h2 + StringHash(Lower(e.description)))
  }

  /** equals and hashCode agree: events that are equal ignoring case hash alike. */
  lemma EqualEventsHashAlike(a: Event, b: Event)
    requires EventEquals(a, b)
    ensures EventHash(a) == EventHash(b)
  {
  }

  /** equals is an equivalence relation. */
  lemma EventEqualsIsEquivalence(a: Event, b: Event, c: Event)
    ensures EventEquals(a, a)
    ensures EventEquals(a, b) ==> EventEquals(b, a)
    ensures EventEquals(a, b) && EventEquals(b, c) ==> EventEquals(a, c)
  {
  }

  /** Events differing only in the case of their letters are equal. */
  lemma EqualsIgnoresCase(e: Event)
    ensures EventEquals(e, Event(Lower(e.date), Lower(e.time), Lower(e.description)))
  {
    forall i | 0 <= i < |e.date| ensures LowerChar(Lower(e.date)[i]) == LowerChar(e.date[i]) {
      LowerCharFacts(e.date[i]);
    }
    forall i | 0 <= i < |e.time| ensures LowerChar(Lower(e.time)[i]) == LowerChar(e.time[i]) {
      LowerCharFacts(e.time[i]);
    }
    forall i | 0 <= i < |e.description|
      ensures LowerChar(Lower(e.description)[i]) == LowerChar(e.description[i])
    {
      LowerCharFacts(e.description[i]);
    }
  }
}

=== FILE: Numbers.dfy ===
/** Integer.parseInt on ASCII digits, with Java's 32-bit int range, and its inverse. */
module Numbers {
  import opened Common

  const IntMin: int := -0x8000_0000
  const IntMax: int := 0x7FFF_FFFF

  /** The values of Java's 32-bit int. */
  predicate InIntRange(n: int) {
    IntMin <= n <= IntMax
  }

  /** Reduces an unbounded integer to the 32-bit two's complement value Java arithmetic
      leaves behind. */
  function Wrap32(n: int): (r: int)
    ensures InIntRange(r)
    ensures (r - n) % 0x1_0000_0000 == 0
  {
    (n - IntMin) % 0x1_0000_0000 + IntMin
  }

  predicate IsDigit(c: char) {
    '0' <= c <= '9'
  }

  predicate AllDigits(s: string) {
    forall i :: 0 <= i < |s| ==> IsDigit(s[i])
  }

  function DigitValue(c: char): nat
    requires IsDigit(c)
  {
    c as int - '0' as int
  }

  /** The decimal value of a run of digits; leading zeros are allowed. */
  function DigitsValue(s: string): nat
    requires AllDigits(s)
  {
    if s == [] then 0 else DigitsValue(s[..|s| - 1]) * 10 + DigitValue(s[|s| - 1])
  }

  function InRange(n: int): (r: Option<int>)
    ensures r.Some? <==> InIntRange(n)
    ensures r.Some? ==> r.value == n
  {
    if InIntRange(n) then Some(n) else None
  }

  /** The text parseInt reads: one or more digits, leading zeros allowed, after an
      optional '+' or '-'. */
  predicate IsIntText(s: string) {
    s != [] && AllDigits(s[1..]) && (IsDigit(s[0]) || ((s[0] == '-' || s[0] == '+') && |s| >= 2))
  }

  /** The signed value of such a text. */
  function IntTextValue(s: string): int
    requires IsIntText(s)
  {
    if s[0] == '-' then -(DigitsValue(s[1..]) as int)
    else if s[0] == '+' then DigitsValue(s[1..])
    else
      assert forall i :: 1 <= i < |s| ==> s[i] == s[1..][i - 1];
      DigitsValue(s)
  }

  /** Integer.parseInt(s): an optional '+' or '-' followed by one or more digits, whose
      value must fit in an int; anything else raises NumberFormatException (None here). */
  function ParseInt(s: string): (r: Option<int>)
    ensures r.Some? ==> InIntRange(r.value)
    ensures r.Some? ==> s != [] && AllDigits(s[1..]) && (IsDigit(s[0]) || ((s[0] == '-' || s[0] == '+') && |s| >= 2))
    ensures r.Some? <==> IsIntText(s) && InIntRange(IntTextValue(s))
    ensures r.Some? ==> r.value == IntTextValue(s)
  {
    if s == [] then None
    else if s[0] == '-' || s[0] == '+' then
      if |s| == 1 || !AllDigits(s[1..]) then None
      else
        var magnitude: int := DigitsValue(s[1..]);
        InRange(if s[0] == '-' then -magnitude else magnitude)
    else if !AllDigits(s) then None
    else InRange(DigitsValue(s))
  }

  function DigitChar(d: nat): (c: char)
    requires d < 10
    ensures IsDigit(c) && DigitValue(c) == d
  {
    ('0' as int + d) as char
  }

  /** The decimal rendering of a natural number, without leading zeros. */
  function ShowNat(n: nat): (s: string)
    ensures s != [] && AllDigits(s) && DigitsValue(s) == n
  {
    if n < 10 then [DigitChar(n)]
    else
      var s := ShowNat(n / 10) + [DigitChar(n % 10)];
      assert s[..|s| - 1] == ShowNat(n / 10);
      s
  }

  /** Integer.toString(n). */
  function ShowInt(n: int): string {
    if n < 0 then "-" + ShowNat(-n) else ShowNat(n)
  }

  /** parseInt reads back every int that toString writes. */
  lemma ParseShowInt(n: int)
    requires InIntRange(n)
    ensures ParseInt(ShowInt(n)) == Some(n)
  {
    if n < 0 {
      assert ShowInt(n)[1..] == ShowNat(-n);
    }
  }

  /** Leading zeros and an explicit sign are accepted, as parseInt accepts them. */
  lemma ParseIntNonCanonical()
    ensures ParseInt("02") == Some(2)
    ensures ParseInt("+5") == Some(5)
    ensures ParseInt("-0") == Some(0)
  {
    assert DigitsValue("02") == 2 by {
      assert "02"[..1] == "0";
    }
  }

  /** A digit string whose value does not fit in an int is rejected, as Java rejects it. */
  lemma ParseIntRejectsOverflow(s: string)
    requires s != [] && AllDigits(s) && DigitsValue(s) > IntMax
    ensures ParseInt(s) == None
  {
  }
}

=== FILE: Persistence.dfy ===
/** The events file, as a list of text lines. Saving writes one "date; time; description"
    line per event, bucket by bucket, each bucket sorted by time; loading reads the lines
    back, skips the ones it cannot parse, and appends each event to the bucket for its
    date, in file order. */
module Persistence {
  import opened Common
  import opened Text
  import opened Events
  import opened Buckets
  import opened Store

  // ---------------------------------------------------------------- save

  /** The line written for one event. */
  function EventLine(e: Event): string {
    e.date + "; " + e.time + "; " + e.description
  }

  /** A saved line holds at least the two ';' put between the fields, so the loader never
      skips it. */
  lemma EventLineSeparators(e: Event)
    ensures multiset(EventLine(e))[';'] >= 2
  {
    assert multiset(EventLine(e)) ==
           multiset(e.date) + multiset("; ") + multiset(e.time) + multiset("; ") + multiset(e.description);
  }

  /** The lines for a bucket, one per event, in bucket order. */
  function BucketLines(b: Bucket): (r: seq<string>)
    ensures |r| == |b|
    ensures forall i :: 0 <= i < |b| ==> r[i] == EventLine(b[i])
  {
    seq(|b|, i requires 0 <= i < |b| => EventLine(b[i]))
  }

  /** No key is listed twice. */
  predicate Distinct(keys: seq<string>) {
    forall i, j :: 0 <= i < j < |keys| ==> keys[i] != keys[j]
  }

  /** keys lists the board's keys, each once, in the order the save visits them. */
  predicate ListsKeys(keys: seq<string>, board: Board) {
    && Distinct(keys)
    && (forall k :: k in keys ==> k in board)
    && (forall k :: k in board ==> k in keys)
  }

  /** The save: for each key in the given order, skip an empty bucket, otherwise write a
      copy of the bucket sorted by time. The key order (dates sorted by their parsed
      calendar value) is a parameter. */
  function SaveLines(board: Board, keys: seq<string>): (r: seq<string>)
    requires forall k :: k in keys ==> k in board
    ensures forall i :: 0 <= i < |r| ==> multiset(r[i])[';'] >= 2
  {
    if keys == [] then []
    else SaveLines(board, keys[..|keys| - 1]) + KeyLines(board, keys[|keys| - 1])
  }

  /** The lines written for one key: none for an empty bucket, otherwise one per event of
      a copy of the bucket sorted by time. */
  function KeyLines(board: Board, k: string): (r: seq<string>)
    requires k in board
    ensures |r| == |board[k]|
    ensures forall i :: 0 <= i < |r| ==> multiset(r[i])[';'] >= 2
  {
    if board[k] == [] then []
    else
      var r := BucketLines(SortByTime(board[k]));
      assert forall i :: 0 <= i < |r| ==> multiset(r[i])[';'] >= 2 by {
        forall i | 0 <= i < |r|
          ensures multiset(r[i])[';'] >= 2
        {
          EventLineSeparators(SortByTime(board[k])[i]);
        }
      }
      r
  }

  // ---------------------------------------------------------------- load

  /** Reading one line: trim it, skip it when blank, cut it at the first two ';', skip it
      when there are fewer than three pieces, and build the event from the trimmed pieces.
      Whatever it builds could have been stored: fields trimmed, no ';' in date or time. */
  function ParseLine(line: string): (r: Option<Event>)
    ensures r.Some? ==> IsStorable(r.value)
  {
    var t := Trim(line);
    if t == [] then None
    else
      var parts := Split(t, ';', 3);
      if |parts| < 3 then None
      else
        TrimKeepsAbsence(parts[0], ';');
        TrimKeepsAbsence(parts[1], ';');
        Some(MkEvent(Trim(parts[0]), Trim(parts[1]), Trim(parts[2])))
  }

  /** Reading every line of the file. */
  function ParseAll(lines: seq<string>): (r: seq<Option<Event>>)
    ensures |r| == |lines|
    ensures forall i :: 0 <= i < |lines| ==> r[i] == ParseLine(lines[i])
  {
    seq(|lines|, i requires 0 <= i < |lines| => ParseLine(lines[i]))
  }

  /** Filing one read line: an event is appended to the end of the bucket for its date
      (created when absent), with no re-sort; a skipped line changes nothing. */
  function FileEvent(board: Board, p: Option<Event>): (r: Board)
    ensures p.None? ==> r == board
    ensures p.Some? ==>
              && r.Keys == board.Keys + {p.value.date}
              && r[p.value.date] == BucketOf(board, p.value.date) + [p.value]
              && forall k :: k in board && k != p.value.date ==> r[k] == board[k]
  {
    match p
    case None => board
    case Some(e) => board[e.date := BucketOf(board, e.date) + [e]]
  }

  /** Filing the read lines in file order. */
  function FileAll(board: Board, parsed: seq<Option<Event>>): Board {
    if parsed == [] then board
    else FileEvent(FileAll(board, parsed[..|parsed| - 1]), parsed[|parsed| - 1])
  }

  /** Filing only appends: no key is lost, every old bucket is a prefix of the new one,
      and a bucket that filing creates holds at least one event. */
  lemma {:induction false} FileAllGrows(board: Board, parsed: seq<Option<Event>>)
    ensures var r := FileAll(board, parsed);
            && board.Keys <= r.Keys
            && (forall k :: k in board ==> board[k] <= r[k])
            && (forall k :: k in r && k !in board ==> r[k] != [])
  {
    if parsed != [] {
      FileAllGrows(board, parsed[..|parsed| - 1]);
    }
  }

  /** Loading a file into a board, line by line. Reading a line does not depend on the
      board, so reading all lines first and then filing them in order is the same loop. */
  function LoadInto(board: Board, lines: seq<string>): (r: Board)
    ensures board.Keys <= r.Keys
    ensures forall k :: k in board ==> board[k] <= r[k]
  {
    FileAllGrows(board, ParseAll(lines));
    FileAll(board, ParseAll(lines))
  }

  /** Loading at start-up, into the empty board: every bucket it creates holds at least
      one event, and every event is storable and filed under its own date. */
  function Load(lines: seq<string>): (r: Board)
    ensures forall k :: k in r ==> r[k] != []
    ensures WellFormed(r)
  {
    LoadKeepsWellFormed(map[], lines);
    FileAllGrows(map[], ParseAll(lines));
    LoadInto(map[], lines)
  }

  // ---------------------------------------------------------------- properties

  /** A line is skipped exactly when it holds fewer than two ';': a blank line, a line
      without ';', and a line cut into only two pieces are skipped, and every line with two
      or more ';' yields an event. */
  lemma SkipsUnparsable(line: string)
    ensures ParseLine(line).None? <==> multiset(line)[';'] < 2
  {
    var t := Trim(line);
    TrimKeepsCount(line, ';');
    if t != [] {
      SplitCount(t, ';', 3);
    }
  }

  /** Every line the save writes is read back by the loader, none is skipped. */
  lemma SavedLinesAreRead(board: Board, keys: seq<string>)
    requires forall k :: k in keys ==> k in board
    ensures forall i :: 0 <= i < |SaveLines(board, keys)| ==> ParseLine(SaveLines(board, keys)[i]).Some?
  {
    var lines := SaveLines(board, keys);
    forall i | 0 <= i < |lines|
      ensures ParseLine(lines[i]).Some?
    {
      SkipsUnparsable(lines[i]);
    }
  }

  /** "a; b" has one ';' and is skipped; "a; b; c" has two and is read. */
  lemma SkipsOneSeparator()
    ensures ParseLine("a; b") == None
    ensures ParseLine("a; b; c").Some?
  {
    SkipsUnparsable("a; b");
    assert multiset("a; b")[';'] == 1;
    SkipsUnparsable("a; b; c");
    assert multiset("a; b; c")[';'] == 2;
  }

  /** The part of a saved line the loader splits, after its trim: the whole line, unless
      the description is empty and the trailing space goes. */
  lemma TrimEventLine(e: Event)
    requires IsStorable(e)
    ensures var tail := if e.description == [] then [] else " " + e.description;
            Trim(EventLine(e)) == e.date + [';'] + (" " + e.time + [';'] + tail)
  {
    var line := EventLine(e);
    var tail := if e.description == [] then [] else " " + e.description;
    var core := e.date + [';'] + (" " + e.time + [';'] + tail);
    assert line == core + (if e.description == [] then " " else []);
    assert core[|e.date|] == ';';
    assert core[0] == ';' || core[0] == e.date[0];
    assert !IsTrimmable(core[|core| - 1]) by {
      if e.description == [] {
        assert core[|core| - 1] == ';';
      } else {
        assert core[|core| - 1] == e.description[|e.description| - 1];
      }
    }
    assert TrimLeft(line) == line;
    if e.description == [] {
      assert line[..|line| - 1] == core;
      assert TrimRight(line) == TrimRight(core);
    }
    assert TrimRight(core) == core;
  }

  /** The loader cuts a saved line into the date, the time after its space, and the
      description after its space (or nothing). */
  lemma SplitEventLine(e: Event)
    requires IsStorable(e)
    ensures var tail := if e.description == [] then [] else " " + e.description;
            Split(Trim(EventLine(e)), ';', 3) == [e.date, " " + e.time, tail]
  {
    var tail := if e.description == [] then [] else " " + e.description;
    TrimEventLine(e);
    assert ';' !in " " + e.time;
    SplitThree(e.date, " " + e.time, tail, ';');
  }

  /** A line that cuts into three pieces reads as the event of the trimmed pieces. */
  lemma ParseThreePieces(line: string, a: string, b: string, c: string)
    requires Split(Trim(line), ';', 3) == [a, b, c]
    ensures ParseLine(line) == Some(MkEvent(Trim(a), Trim(b), Trim(c)))
  {
  }

  /** A saved line reads back as the event it was written from. */
  lemma ParseEventLine(e: Event)
    requires IsStorable(e)
    ensures ParseLine(EventLine(e)) == Some(e)
  {
    var tail := if e.description == [] then [] else " " + e.description;
    SplitEventLine(e);
    ParseThreePieces(EventLine(e), e.date, " " + e.time, tail);
    TrimOfTrimmed(e.date);
    TrimAfterSpace(e.time);
    if e.description == [] {
      assert Trim(tail) == [];
    } else {
      TrimAfterSpace(e.description);
    }
  }

  /** Every event read from a line could have been stored. */
  predicate AllStorable(parsed: seq<Option<Event>>) {
    forall i :: 0 <= i < |parsed| && parsed[i].Some? ==> IsStorable(parsed[i].value)
  }

  /** Filing a storable event under its own date keeps a well-formed board well formed. */
  lemma FileEventKeepsWellFormed(board: Board, p: Option<Event>)
    requires WellFormed(board) && (p.Some? ==> IsStorable(p.value))
    ensures WellFormed(FileEvent(board, p))
  {
    var r := FileEvent(board, p);
    if p.Some? {
      var e := p.value;
      forall k: string, x: Event | k in r && x in r[k] ensures x.date == k && IsStorable(x) {
        if k != e.date {
          assert r[k] == board[k];
        } else {
          assert x == e || x in BucketOf(board, e.date);
        }
      }
    }
  }

  lemma {:induction false} FileAllKeepsWellFormed(board: Board, parsed: seq<Option<Event>>)
    requires WellFormed(board) && AllStorable(parsed)
    ensures WellFormed(FileAll(board, parsed))
    ensures board.Keys <= FileAll(board, parsed).Keys
  {
    if parsed != [] {
      var init := parsed[..|parsed| - 1];
      assert AllStorable(init) by {
        forall i | 0 <= i < |init| ensures init[i] == parsed[i] { }
      }
      FileAllKeepsWellFormed(board, init);
      FileEventKeepsWellFormed(FileAll(board, init), parsed[|parsed| - 1]);
    }
  }

  /** Loading any file into a well-formed board (the empty one, at start-up) gives a
      well-formed board: every event trimmed, no ';' in its date or time, and filed under
      its own date. No key is lost. */
  lemma LoadKeepsWellFormed(board: Board, lines: seq<string>)
    requires WellFormed(board)
    ensures WellFormed(LoadInto(board, lines))
    ensures board.Keys <= LoadInto(board, lines).Keys
  {
    FileAllKeepsWellFormed(board, ParseAll(lines));
  }

  /** Filing two runs of read lines one after the other is filing the whole. */
  lemma {:induction false} FileAllConcat(board: Board, a: seq<Option<Event>>, b: seq<Option<Event>>)
    ensures FileAll(board, a + b) == FileAll(FileAll(board, a), b)
  {
    if b != [] {
      var ab := a + b;
      assert ab[..|ab| - 1] == a + b[..|b| - 1];
      assert ab[|ab| - 1] == b[|b| - 1];
      FileAllConcat(board, a, b[..|b| - 1]);
    } else {
      assert a + b == a;
    }
  }

  lemma ParseAllConcat(a: seq<string>, b: seq<string>)
    ensures ParseAll(a + b) == ParseAll(a) + ParseAll(b)
  {
    var l, r := ParseAll(a + b), ParseAll(a) + ParseAll(b);
    forall i | 0 <= i < |a + b| ensures l[i] == r[i] {
      if i < |a| {
        assert (a + b)[i] == a[i];
      } else {
        assert (a + b)[i] == b[i - |a|];
      }
    }
  }

  /** Loading two pieces of a file one after the other is loading the whole. */
  lemma LoadConcat(board: Board, a: seq<string>, b: seq<string>)
    ensures LoadInto(board, a + b) == LoadInto(LoadInto(board, a), b)
  {
    ParseAllConcat(a, b);
    FileAllConcat(board, ParseAll(a), ParseAll(b));
  }

  lemma AppendLast<T>(s: seq<T>)
    requires s != []
    ensures s[..|s| - 1] + [s[|s| - 1]] == s
  {
  }

  /** Every event of b, read successfully, in order. */
  function Found(b: Bucket): (r: seq<Option<Event>>)
    ensures |r| == |b|
    ensures forall i :: 0 <= i < |b| ==> r[i] == Some(b[i])
  {
    seq(|b|, i requires 0 <= i < |b| => Some(b[i]))
  }

  /** The saved lines of a bucket of storable events read back as those events. */
  lemma ParseBucketLines(b: Bucket)
    requires forall e :: e in b ==> IsStorable(e)
    ensures ParseAll(BucketLines(b)) == Found(b)
  {
    forall i | 0 <= i < |b| ensures ParseLine(EventLine(b[i])) == Some(b[i]) {
      ParseEventLine(b[i]);
    }
  }

  /** Filing a non-empty run of lines files all but the last, then the last. */
  lemma FileFoundLast(board: Board, b: Bucket)
    requires b != []
    ensures FileAll(board, Found(b)) == FileEvent(FileAll(board, Found(b[..|b| - 1])), Some(b[|b| - 1]))
  {
    assert Found(b)[..|b| - 1] == Found(b[..|b| - 1]);
  }

  /** Filing one event of date k into a board whose bucket k is u. */
  lemma FileInto(m: Board, k: string, u: Bucket, e: Event)
    requires e.date == k && BucketOf(m, k) == u
    ensures FileEvent(m, Some(e)) == m[k := u + [e]]
  {
  }

  /** A second update of the same key hides the first. */
  lemma UpdateTwice(m: Board, k: string, u: Bucket, v: Bucket)
    ensures m[k := u][k := v] == m[k := v]
  {
  }

  /** Filing the events of a bucket, all dated k, appends that bucket, in order, under k. */
  lemma {:induction false} FileBucket(board: Board, k: string, b: Bucket)
    requires forall e :: e in b ==> e.date == k
    ensures FileAll(board, Found(b)) == if b == [] then board else board[k := BucketOf(board, k) + b]
  {
    if b != [] {
      var init := b[..|b| - 1];
      var last := b[|b| - 1];
      var x := BucketOf(board, k);
      var before := FileAll(board, Found(init));
      FileFoundLast(board, b);
      assert last.date == k by {
        assert last in b;
      }
      assert x + init + [last] == x + b by {
        AppendLast(b);
      }
      if init == [] {
        assert before == board;
        assert b == [last];
        FileInto(board, k, x, last);
      } else {
        assert before == board[k := x + init] by {
          assert forall e :: e in init ==> e in b;
          FileBucket(board, k, init);
        }
        FileInto(before, k, x + init, last);
        UpdateTwice(board, k, x + init, x + b);
      }
    }
  }

  /** Loading the lines of a bucket whose events are storable and all dated k appends
      that bucket, in order, under k. */
  lemma LoadBucket(board: Board, k: string, b: Bucket)
    requires forall e :: e in b ==> e.date == k && IsStorable(e)
    ensures LoadInto(board, BucketLines(b)) == if b == [] then board else board[k := BucketOf(board, k) + b]
  {
    ParseBucketLines(b);
    FileBucket(board, k, b);
  }

  /** What the save of the keys listed so far reads back as: every listed key with a
      non-empty bucket, holding that bucket sorted by time. */
  function SavedPart(board: Board, keys: seq<string>): Board {
    map k | k in keys && k in board && board[k] != [] :: SortByTime(board[k])
  }

  /** Listing one more key adds its bucket, sorted, unless the bucket is empty. */
  lemma SavedPartStep(board: Board, keys: seq<string>)
    requires keys != [] && forall k :: k in keys ==> k in board
    ensures var init, k := keys[..|keys| - 1], keys[|keys| - 1];
            SavedPart(board, keys) ==
              if board[k] == [] then SavedPart(board, init)
              else SavedPart(board, init)[k := SortByTime(board[k])]
  {
    var init, k := keys[..|keys| - 1], keys[|keys| - 1];
    assert keys == init + [k];
    assert forall x :: x in keys <==> x in init || x == k;
  }

  /** The sorted copy of a bucket of a well-formed board holds only events filed under
      that bucket's key. */
  lemma SortedCopyStorable(board: Board, k: string)
    requires WellFormed(board) && k in board
    ensures forall e :: e in SortByTime(board[k]) ==> e.date == k && IsStorable(e)
  {
    var b := board[k];
    assert forall e :: e in b ==> e.date == k && IsStorable(e);
    SortPermutes(b);
    SameMembers(SortByTime(b), b);
  }

  /** Sequences with the same multiset have the same members. */
  lemma SameMembers(a: Bucket, b: Bucket)
    requires multiset(a) == multiset(b)
    ensures forall e :: e in a ==> e in b
  {
    forall e | e in a ensures e in b {
      assert e in multiset(a);
    }
  }

  /** The keys listed before the last one are distinct, and the last is not among them. */
  lemma InitKeys(board: Board, keys: seq<string>)
    requires keys != [] && Distinct(keys) && forall k :: k in keys ==> k in board
    ensures var init := keys[..|keys| - 1];
            && Distinct(init)
            && (forall k :: k in init ==> k in board)
            && keys[|keys| - 1] !in SavedPart(board, init)
  {
    var init, k := keys[..|keys| - 1], keys[|keys| - 1];
    assert forall x :: x in init ==> x in keys;
    forall i | 0 <= i < |init| ensures init[i] != k {
      assert init[i] == keys[i];
    }
  }

  /** Loading the save of one more key is loading its lines after the rest. */
  lemma LoadNextKey(board: Board, keys: seq<string>)
    requires keys != [] && forall k :: k in keys ==> k in board
    ensures var init := keys[..|keys| - 1];
            Load(SaveLines(board, keys)) ==
              LoadInto(Load(SaveLines(board, init)), KeyLines(board, keys[|keys| - 1]))
  {
    var init := keys[..|keys| - 1];
    assert forall x :: x in init ==> x in keys;
    LoadConcat(map[], SaveLines(board, init), KeyLines(board, keys[|keys| - 1]));
  }

  /** Loading the lines of a non-empty bucket under a fresh key files its sorted copy. */
  lemma LoadKeyLines(board: Board, before: Board, k: string)
    requires WellFormed(board) && k in board && board[k] != [] && k !in before
    ensures LoadInto(before, KeyLines(board, k)) == before[k := SortByTime(board[k])]
  {
    var sorted := SortByTime(board[k]);
    SortedCopyStorable(board, k);
    LoadBucket(before, k, sorted);
    assert BucketOf(before, k) + sorted == sorted;
  }

  lemma {:induction false} SavePrefixRoundTrip(board: Board, keys: seq<string>)
    requires WellFormed(board) && Distinct(keys)
    requires forall k :: k in keys ==> k in board
    ensures Load(SaveLines(board, keys)) == SavedPart(board, keys)
  {
    if keys != [] {
      var init, k := keys[..|keys| - 1], keys[|keys| - 1];
      InitKeys(board, keys);
      SavePrefixRoundTrip(board, init);
      LoadNextKey(board, keys);
      SavedPartStep(board, keys);
      if board[k] != [] {
        LoadKeyLines(board, SavedPart(board, init), k);
      }
    }
  }

  /** Saving a well-formed board and loading the file into an empty board gives back
      every non-empty bucket, sorted by time, and nothing else, whatever order the keys
      were written in. */
  lemma SaveLoadRoundTrip(board: Board, keys: seq<string>)
    requires WellFormed(board) && ListsKeys(keys, board)
    ensures Load(SaveLines(board, keys)) ==
              map k | k in board && board[k] != [] :: SortByTime(board[k])
  {
    SavePrefixRoundTrip(board, keys);
  }

  /** When every bucket is already sorted (as adds and removes keep them), the round trip
      gives back the board itself, minus its empty buckets. */
  lemma SaveLoadSortedBoard(board: Board, keys: seq<string>)
    requires WellFormed(board) && ListsKeys(keys, board) && AllSorted(board)
    ensures Load(SaveLines(board, keys)) == map k | k in board && board[k] != [] :: board[k]
  {
    SaveLoadRoundTrip(board, keys);
    SortedBuckets(board);
  }

  lemma SortedBuckets(board: Board)
    requires AllSorted(board)
    ensures (map k | k in board && board[k] != [] :: SortByTime(board[k])) ==
            (map k | k in board && board[k] != [] :: board[k])
  {
    forall k | k in board {
      SortOfSorted(board[k]);
    }
  }

  /** Loading does not sort: the lines of two events of one date, written out of time
      order, come back as an unsorted bucket. */
  lemma LoadKeepsFileOrder(first: Event, second: Event)
    requires IsStorable(first) && IsStorable(second) && first.date == second.date
    requires !TimeLe(first, second)
    ensures BucketLines([first, second]) == [EventLine(first), EventLine(second)]
    ensures Load(BucketLines([first, second])) == map[first.date := [first, second]]
    ensures !AllSorted(Load(BucketLines([first, second])))
  {
    var bucket := [first, second];
    var empty: Board := map[];
    TwoLines(first, second);
    assert Load(BucketLines(bucket)) == map[first.date := bucket] by {
      LoadBucket(empty, first.date, bucket);
      assert BucketOf(empty, first.date) + bucket == bucket;
    }
    assert !SortedByTime(bucket) by {
      assert bucket[0] == first && bucket[1] == second;
    }
    assert Load(BucketLines(bucket))[first.date] == bucket;
  }

  /** The lines of a two-event bucket. */
  lemma TwoLines(first: Event, second: Event)
    ensures BucketLines([first, second]) == [EventLine(first), EventLine(second)]
  {
    var b := [first, second];
    var lines := BucketLines(b);
    assert |lines| == 2 && lines[0] == EventLine(b[0]) && lines[1] == EventLine(b[1]);
  }
}

=== FILE: Protocol.dfy ===
/** processMessage: one protocol line in, the new board and the reply line out. The
    exceptions it throws are turned into "ERROR: " + message by its caller. */
module Protocol {
  import opened Common
  import opened Text
  import opened Events
  import opened Buckets
  import opened Validation
  import opened Store

  /** The board after a command and the line sent back. */
  datatype Step = Step(board: Board, reply: string)

  const ErrorPrefix: string := "ERROR: "
  const MalformedReply: string := ErrorPrefix + "Malformed message. Missing action or event details."
  const AddUsage: string := "Usage: add; date; time; description"
  const RemoveUsage: string := "Usage: remove; date; time; description"

  /** The fields of a non-blank line: the trimmed line split on ';' into at most 4 parts. */
  function Fields(message: string): (parts: seq<string>)
    ensures 1 <= |parts| <= 4
    ensures forall i :: 0 <= i < |parts| - 1 ==> ';' !in parts[i]
    ensures Join(parts, ';') == Trim(message)
  {
    SplitJoins(Trim(message), ';', 4);
    Split(Trim(message), ';', 4)
  }

  /** The action: the first field, trimmed and lower-cased. */
  function ActionOf(message: string): (r: string)
    ensures IsTrimmed(r) && HasNoUpper(r)
    ensures EqualsIgnoreCase(r, Trim(Fields(message)[0]))
  {
    LowerKeepsTrimmed(Trim(Fields(message)[0]));
    LowerFoldsCase(Trim(Fields(message)[0]));
    Lower(Trim(Fields(message)[0]))
  }

  /** Field i trimmed, or "" when the line has fewer fields. */
  function FieldOr(parts: seq<string>, i: nat): (r: string)
    ensures IsTrimmed(r)
    ensures i < |parts| ==> exists lo :: IsCoreOf(parts[i], lo, r)
    ensures i >= |parts| ==> r == []
  {
    if i < |parts| then TrimIsCore(parts[i]); Trim(parts[i]) else ""
  }

  /** An add or remove line with all four fields and a date and time that pass the checks:
      the only kind of line that can change the board. */
  predicate IsAcceptedEdit(message: string)
    requires Trim(message) != []
  {
    var parts := Fields(message);
    && ActionOf(message) in {"add", "remove"}
    && |parts| == 4
    && ValidateDate(FieldOr(parts, 1)) == Valid
    && ValidateTime(FieldOr(parts, 2)) == Valid
  }

  /** processMessage, with the exceptions it throws made explicit. */
  function ProcessMessage(board: Board, message: string): (r: Outcome<Step>)
    ensures r.Returned? && r.value.board != board ==> Trim(message) != [] && IsAcceptedEdit(message)
  {
    if Trim(message) == [] then Thrown("ERROR: Empty message.")
    else
      var parts := Fields(message);
      var action := ActionOf(message);
      if action == "stop" then Returned(Step(board, "TERMINATE"))
      else if |parts| < 2 then Returned(Step(board, MalformedReply))
      else
        var date := FieldOr(parts, 1);
        var time := FieldOr(parts, 2);
        var desc := FieldOr(parts, 3);
        if action == "add" then AddCommand(board, |parts|, date, time, desc)
        else if action == "remove" then RemoveCommand(board, |parts|, date, time, desc)
        else if action == "list" then Returned(Step(board, FormatEventList(BucketOf(board, date))))
        else Thrown("Invalid command: " + action)
  }

  /** The add case: four fields, a valid date and time, then append and re-sort. */
  function AddCommand(board: Board, count: nat, date: string, time: string, desc: string)
    : (r: Outcome<Step>)
    ensures r.Returned? ==> count >= 4 && ValidateDate(date) == Valid && ValidateTime(time) == Valid
    ensures r.Returned? ==> r.value.board == AddEvent(board, date, MkEvent(date, time, desc))
  {
    if count < 4 then Thrown(AddUsage)
    else
      match ValidateDate(date)
      case Invalid(reason) => Thrown(reason)
      case Valid =>
        match ValidateTime(time)
        case Invalid(reason) => Thrown(reason)
        case Valid =>
          var e := MkEvent(date, time, desc);
          Returned(Step(AddEvent(board, date, e), e.date + "; " + e.time + ", " + e.description + " has been added"))
  }

  /** The remove case: four fields, a valid date and time, then delete the first match. */
  function RemoveCommand(board: Board, count: nat, date: string, time: string, desc: string)
    : (r: Outcome<Step>)
    ensures r.Returned? ==> count >= 4 && ValidateDate(date) == Valid && ValidateTime(time) == Valid
    ensures r.Returned? && r.value.board != board ==> RemoveEvent(board, date, date, time, desc).Removed?
  {
    if count < 4 then Thrown(RemoveUsage)
    else
      match ValidateDate(date)
      case Invalid(reason) => Thrown(reason)
      case Valid =>
        match ValidateTime(time)
        case Invalid(reason) => Thrown(reason)
        case Valid =>
          match RemoveEvent(board, date, date, time, desc)
          case NoBucket => Returned(Step(board, "no events"))
          case NoMatch => Returned(Step(board, "Error: Event not found on " + date))
          case Removed(e, board') =>
            Returned(Step(board', e.date + "; " + e.time + ", " + e.description + " has been removed"))
  }

  /** The handler around processMessage: a thrown message becomes "ERROR: " + message and
      leaves the board as it was. */
  function Respond(board: Board, message: string): (r: Step)
    ensures r.board != board ==> Trim(message) != [] && IsAcceptedEdit(message)
  {
    match ProcessMessage(board, message)
    case Returned(step) => step
    case Thrown(m) => Step(board, ErrorPrefix + m)
  }
}

=== FILE: ProtocolProperties.dfy ===
/** What each kind of protocol line does to the board and what it replies. */
module ProtocolProperties {
  import opened Common
  import opened Text
  import opened Events
  import opened Buckets
  import opened Validation
  import opened Store
  import opened Protocol

  // ---------------------------------------------------------------- lines that change nothing

  /** A blank line: processMessage throws "ERROR: Empty message." and the handler adds its
      own "ERROR: " in front. */
  lemma BlankLine(board: Board, message: string)
    requires Trim(message) == []
    ensures Respond(board, message) == Step(board, "ERROR: ERROR: Empty message.")
  {
    assert ProcessMessage(board, message) == Thrown("ERROR: Empty message.");
    DoubleErrorText();
  }

  lemma DoubleErrorText()
    ensures ErrorPrefix + "ERROR: Empty message." == "ERROR: ERROR: Empty message."
  {
  }

  /** "stop", in any letter case and with any further fields, replies exactly TERMINATE. */
  lemma StopLine(board: Board, message: string)
    requires Trim(message) != [] && ActionOf(message) == "stop"
    ensures Respond(board, message) == Step(board, "TERMINATE")
  {
  }

  /** Any other action on a line without a second field is malformed. */
  lemma MissingDetails(board: Board, message: string)
    requires Trim(message) != [] && ActionOf(message) != "stop" && |Fields(message)| < 2
    ensures Respond(board, message) == Step(board, MalformedReply)
  {
  }

  /** add or remove with only two or three fields gets the usage text. */
  lemma TooFewFields(board: Board, message: string)
    requires Trim(message) != [] && ActionOf(message) in {"add", "remove"}
    requires 2 <= |Fields(message)| < 4
    ensures Respond(board, message) ==
              Step(board, "ERROR: " + (if ActionOf(message) == "add" then AddUsage else RemoveUsage))
  {
  }

  /** add or remove with a date the check refuses reports the check's reason. */
  lemma BadDate(board: Board, message: string)
    requires Trim(message) != [] && ActionOf(message) in {"add", "remove"}
    requires |Fields(message)| == 4
    requires ValidateDate(FieldOr(Fields(message), 1)).Invalid?
    ensures Respond(board, message) ==
              Step(board, "ERROR: " + ValidateDate(FieldOr(Fields(message), 1)).reason)
  {
  }

  /** add or remove with a good date but a time the check refuses reports that reason. */
  lemma BadTime(board: Board, message: string)
    requires Trim(message) != [] && ActionOf(message) in {"add", "remove"}
    requires |Fields(message)| == 4
    requires ValidateDate(FieldOr(Fields(message), 1)) == Valid
    requires ValidateTime(FieldOr(Fields(message), 2)).Invalid?
    ensures Respond(board, message) ==
              Step(board, "ERROR: " + ValidateTime(FieldOr(Fields(message), 2)).reason)
  {
  }

  /** An action other than stop, add, remove and list is reported by name, lower-cased. */
  lemma UnknownAction(board: Board, message: string)
    requires Trim(message) != [] && |Fields(message)| >= 2
    requires ActionOf(message) != "stop" && ActionOf(message) != "add"
    requires ActionOf(message) != "remove" && ActionOf(message) != "list"
    ensures Respond(board, message) == Step(board, "ERROR: " + ("Invalid command: " + ActionOf(message)))
  {
    var parts := Fields(message);
    var action := ActionOf(message);
    assert !(action == "stop");
    assert !(|parts| < 2);
    assert !(action == "add");
    assert !(action == "remove");
    assert !(action == "list");
    assert ProcessMessage(board, message) == Thrown("Invalid command: " + ActionOf(message));
  }

  /** list never changes the board; it replies "no events" exactly when the bucket for the
      date is absent or empty, and otherwise the formatted bucket. Extra fields are ignored. */
  lemma ListLine(board: Board, message: string)
    requires Trim(message) != [] && ActionOf(message) == "list" && |Fields(message)| >= 2
    ensures var date := FieldOr(Fields(message), 1);
            && Respond(board, message) == Step(board, FormatEventList(BucketOf(board, date)))
            && (Respond(board, message).reply == "no events" <==> BucketOf(board, date) == [])
  {
  }

  // ---------------------------------------------------------------- add and remove

  /** A successful add files exactly one event, built from the trimmed fields, under the
      date: that bucket grows by one (duplicates are not refused), ends up sorted, holds
      the new event right after the events whose time is not after it, and no other key
      changes. */
  lemma AddLine(board: Board, message: string)
    requires Trim(message) != [] && ActionOf(message) == "add" && |Fields(message)| == 4
    requires ValidateDate(FieldOr(Fields(message), 1)) == Valid
    requires ValidateTime(FieldOr(Fields(message), 2)) == Valid
    ensures var parts := Fields(message);
            var date, time, desc := FieldOr(parts, 1), FieldOr(parts, 2), FieldOr(parts, 3);
            var before := BucketOf(board, date);
            var r := Respond(board, message);
            && r.reply == date + "; " + time + ", " + desc + " has been added"
            && r.board.Keys == board.Keys + {date}
            && |r.board[date]| == |before| + 1
            && multiset(r.board[date]) == multiset(before) + multiset{Event(date, time, desc)}
            && SortedByTime(r.board[date])
            && (SortedByTime(before) ==> r.board[date] == InsertByTime(before, Event(date, time, desc)))
            && (forall k :: k in board && k != date ==> r.board[k] == board[k])
  {
    var parts := Fields(message);
    var date, time, desc := FieldOr(parts, 1), FieldOr(parts, 2), FieldOr(parts, 3);
    assert MkEvent(date, time, desc) == Event(date, time, desc);
  }

  /** remove has three outcomes. No bucket under the date: "no events". A bucket with no
      event equal to the request ignoring case: "Error: Event not found on <date>". Otherwise
      the first such event is deleted, the bucket shrinks by one and stays sorted, and the
      reply quotes the stored event. Only the first of several equal events goes. */
  lemma RemoveLine(board: Board, message: string)
    requires Trim(message) != [] && ActionOf(message) == "remove" && |Fields(message)| == 4
    requires ValidateDate(FieldOr(Fields(message), 1)) == Valid
    requires ValidateTime(FieldOr(Fields(message), 2)) == Valid
    ensures var parts := Fields(message);
            var date, time, desc := FieldOr(parts, 1), FieldOr(parts, 2), FieldOr(parts, 3);
            var r := Respond(board, message);
            && (date !in board ==> r == Step(board, "no events"))
            && (date in board && FirstMatch(board[date], date, time, desc).None? ==>
                  r == Step(board, "Error: Event not found on " + date))
            && (date in board && FirstMatch(board[date], date, time, desc).Some? ==>
                  var i := FirstMatch(board[date], date, time, desc).value;
                  var e := board[date][i];
                  && r.reply == e.date + "; " + e.time + ", " + e.description + " has been removed"
                  && r.board.Keys == board.Keys
                  && |r.board[date]| == |board[date]| - 1
                  && multiset(r.board[date]) + multiset{e} == multiset(board[date])
                  && SortedByTime(r.board[date])
                  && (SortedByTime(board[date]) ==> r.board[date] == board[date][..i] + board[date][i + 1..])
                  && (forall k :: k in board && k != date ==> r.board[k] == board[k]))
  {
    var parts := Fields(message);
    var date, time, desc := FieldOr(parts, 1), FieldOr(parts, 2), FieldOr(parts, 3);
    if date in board && FirstMatch(board[date], date, time, desc).Some? && SortedByTime(board[date]) {
      RemoveFromSorted(board[date], date, time, desc);
    }
  }

  /** Every line other than an accepted add or remove leaves the board as it was. */
  lemma ErrorsKeepBoard(board: Board, message: string)
    requires Trim(message) == [] || !IsAcceptedEdit(message)
    ensures Respond(board, message).board == board
  {
  }

  // ---------------------------------------------------------------- invariants

  /** Every line keeps every event filed under its own date, trimmed, with no ';' in its
      date or time, and keeps every bucket sorted by time. The two invariants are kept
      independently: a board loaded from a hand-edited file may be unsorted and still
      stays well formed. */
  lemma RespondPreservesInvariants(board: Board, message: string)
    ensures WellFormed(board) ==> WellFormed(Respond(board, message).board)
    ensures AllSorted(board) ==> AllSorted(Respond(board, message).board)
  {
    var r := Respond(board, message);
    if r.board != board {
      var parts := Fields(message);
      var date, time, desc := FieldOr(parts, 1), FieldOr(parts, 2), FieldOr(parts, 3);
      if ActionOf(message) == "add" {
        TrimKeepsAbsence(parts[1], ';');
        TrimKeepsAbsence(parts[2], ';');
        var e := MkEvent(date, time, desc);
        assert e == Event(date, time, desc);
        AddEventPreserves(board, date, e);
      } else {
        RemoveEventPreserves(board, date, date, time, desc);
      }
    }
  }

  // ---------------------------------------------------------------- connection loop

  /** The handler closes the connection when the reply equals TERMINATE ignoring case.
      That happens on a stop line and on no other line. */
  lemma TerminatesOnlyOnStop(board: Board, message: string)
    ensures EqualsIgnoreCase(Respond(board, message).reply, "TERMINATE") <==>
              Trim(message) != [] && ActionOf(message) == "stop"
  {
    if Trim(message) != [] && ActionOf(message) == "stop" {
      StopLine(board, message);
    } else {
      NotTerminate(board, message);
      LowerTerminate();
    }
  }

  lemma LowerTerminate()
    ensures Lower("TERMINATE") == "terminate"
  {
  }

  lemma NotTerminate(board: Board, message: string)
    requires Trim(message) == [] || ActionOf(message) != "stop"
    ensures Lower(Respond(board, message).reply) != "terminate"
  {
    ReplyShapes(board, message);
    NotTerminateText(Respond(board, message).reply);
  }

  lemma NotTerminateText(reply: string)
    requires IsOtherReply(reply)
    ensures Lower(reply) != "terminate"
  {
    if reply == "no events" {
      assert Lower(reply)[0] == 'n';
    } else if reply != [] && reply[0] == 'E' {
      assert Lower(reply)[0] == 'e';
    } else {
      var i :| 0 <= i < |reply| && reply[i] == ';';
      assert Lower(reply)[i] == ';';
    }
  }

  /** Every reply other than TERMINATE is "no events", starts with 'E' (the error replies)
      or contains a ';' (the replies that quote an event or a bucket). */
  lemma ReplyShapes(board: Board, message: string)
    ensures var reply := Respond(board, message).reply;
            || (reply == "TERMINATE" && Trim(message) != [] && ActionOf(message) == "stop")
            || IsOtherReply(reply)
  {
    var r := Respond(board, message);
    match ProcessMessage(board, message)
    case Thrown(m) =>
      assert r.reply == ErrorPrefix + m;
      assert r.reply[0] == ErrorPrefix[0];
    case Returned(step) =>
      ReturnedShapes(board, message);
  }

  predicate IsOtherReply(reply: string) {
    reply == "no events" || (reply != [] && reply[0] == 'E') || ';' in reply
  }

  lemma ReturnedShapes(board: Board, message: string)
    requires ProcessMessage(board, message).Returned?
    ensures var reply := ProcessMessage(board, message).value.reply;
            || (reply == "TERMINATE" && Trim(message) != [] && ActionOf(message) == "stop")
            || IsOtherReply(reply)
  {
    var reply := ProcessMessage(board, message).value.reply;
    if ActionOf(message) == "stop" {
    } else if |Fields(message)| < 2 {
      assert reply == MalformedReply;
      assert reply[0] == ErrorPrefix[0];
    } else {
      var parts := Fields(message);
      var date, time, desc := FieldOr(parts, 1), FieldOr(parts, 2), FieldOr(parts, 3);
      if ActionOf(message) == "add" {
        AddShapes(board, |parts|, date, time, desc);
      } else if ActionOf(message) == "remove" {
        RemoveShapes(board, |parts|, date, time, desc);
      } else {
        var b := BucketOf(board, date);
        assert reply == FormatEventList(b);
        if b != [] {
          assert reply == b[0].date + "; " + Groups(b);
          assert reply[|b[0].date|] == ';';
        }
      }
    }
  }

  lemma AddShapes(board: Board, count: nat, date: string, time: string, desc: string)
    requires AddCommand(board, count, date, time, desc).Returned?
    ensures ';' in AddCommand(board, count, date, time, desc).value.reply
  {
    var e := MkEvent(date, time, desc);
    var reply := AddCommand(board, count, date, time, desc).value.reply;
    assert reply == e.date + "; " + e.time + ", " + e.description + " has been added";
    assert reply[|e.date|] == ';';
  }

  lemma RemoveShapes(board: Board, count: nat, date: string, time: string, desc: string)
    requires RemoveCommand(board, count, date, time, desc).Returned?
    ensures IsOtherReply(RemoveCommand(board, count, date, time, desc).value.reply)
  {
    var reply := RemoveCommand(board, count, date, time, desc).value.reply;
    match RemoveEvent(board, date, date, time, desc)
    case NoBucket =>
    case NoMatch =>
      assert reply == "Error: Event not found on " + date;
      assert reply[0] == 'E';
    case Removed(e, _) =>
      assert reply == e.date + "; " + e.time + ", " + e.description + " has been removed";
      assert reply[|e.date|] == ';';
  }
}

=== FILE: Store.dfy ===
/** The event board: a map from the date key, exactly as the client sent it (trimmed), to
    the bucket of events for that key. */
module Store {
  import opened Common
  import opened Text
  import opened Events
  import opened Buckets

  type Board = map<string, Bucket>

  /** The bucket under key, or the empty bucket when the key is absent (a null list). */
  function BucketOf(board: Board, key: string): Bucket {
    if key in board then board[key] else []
  }

  /** Every bucket is sorted by time. */
  predicate AllSorted(board: Board) {
    forall k :: k in board ==> SortedByTime(board[k])
  }

  /** What every stored event looks like: fields trimmed, and no ';' in the date or time
      (they come out of a split on ';'); the description may contain ';'. */
  predicate IsStorable(e: Event) {
    IsTrimmedEvent(e) && ';' !in e.date && ';' !in e.time
  }

  /** Every event is storable and is filed under its own date. */
  predicate WellFormed(board: Board) {
    forall k, e :: k in board && e in board[k] ==> e.date == k && IsStorable(e)
  }

  /** The board-level add: append to the bucket for key (created if absent) and re-sort
      it. That bucket grows by exactly one, ends up sorted, and no other key changes. */
  function AddEvent(board: Board, key: string, e: Event): (r: Board)
    ensures r.Keys == board.Keys + {key}
    ensures |r[key]| == |BucketOf(board, key)| + 1
    ensures multiset(r[key]) == multiset(BucketOf(board, key)) + multiset{e}
    ensures SortedByTime(r[key])
    ensures SortedByTime(BucketOf(board, key)) ==> r[key] == InsertByTime(BucketOf(board, key), e)
    ensures forall k :: k in board && k != key ==> r[k] == board[k]
  {
    board[key := AddToBucket(BucketOf(board, key), e)]
  }

  /** Adding keeps the board sorted, and keeps it well formed when the event is storable
      and filed under its own date. */
  lemma AddEventPreserves(board: Board, key: string, e: Event)
    ensures AllSorted(board) ==> AllSorted(AddEvent(board, key, e))
    ensures WellFormed(board) && IsStorable(e) && e.date == key ==> WellFormed(AddEvent(board, key, e))
  {
    var r := AddEvent(board, key, e);
    AddKeepsSorted(board, key, r);
    AddKeepsWellFormed(board, key, e, r);
  }

  lemma AddKeepsSorted(board: Board, key: string, r: Board)
    requires r.Keys == board.Keys + {key} && SortedByTime(r[key])
    requires forall k :: k in board && k != key ==> r[k] == board[k]
    ensures AllSorted(board) ==> AllSorted(r)
  {
    if AllSorted(board) {
      forall k | k in r ensures SortedByTime(r[k]) {
        if k != key {
          assert r[k] == board[k];
        }
      }
    }
  }

  lemma AddKeepsWellFormed(board: Board, key: string, e: Event, r: Board)
    requires r.Keys == board.Keys + {key}
    requires multiset(r[key]) == multiset(BucketOf(board, key)) + multiset{e}
    requires forall k :: k in board && k != key ==> r[k] == board[k]
    ensures WellFormed(board) && IsStorable(e) && e.date == key ==> WellFormed(r)
  {
    if WellFormed(board) && IsStorable(e) && e.date == key {
      forall k: string, x: Event | k in r && x in r[k] ensures x.date == k && IsStorable(x) {
        if k == key {
          assert x in multiset(r[key]);
          assert x == e || x in multiset(BucketOf(board, key));
        } else {
          assert r[k] == board[k];
        }
      }
    }
  }

  /** What the remove command can find under a key. */
  datatype Removal = NoBucket | NoMatch | Removed(event: Event, board: Board)

  /** The board-level remove: look up the bucket under key, delete its first event that
      matches the request ignoring case, and re-sort the rest. */
  function RemoveEvent(board: Board, key: string, date: string, time: string, description: string)
    : (r: Removal)
    ensures r == NoBucket <==> key !in board
    ensures r == NoMatch <==> key in board && FirstMatch(board[key], date, time, description).None?
    ensures r.Removed? ==> r.board.Keys == board.Keys
    ensures r.Removed? ==> |r.board[key]| == |board[key]| - 1
    ensures r.Removed? ==> multiset(r.board[key]) + multiset{r.event} == multiset(board[key])
    ensures r.Removed? ==> r.event == board[key][FirstMatch(board[key], date, time, description).value]
    ensures r.Removed? ==> SortedByTime(r.board[key])
    ensures r.Removed? ==> forall k :: k in board && k != key ==> r.board[k] == board[k]
  {
    if key !in board then NoBucket
    else
      match RemoveFromBucket(board[key], date, time, description)
      case None => NoMatch
      case Some((e, rest)) =>
        RemoveFromBucketTakesFirst(board[key], date, time, description);
        Removed(e, board[key := rest])
  }

  /** Removing keeps the board sorted and well formed. */
  lemma RemoveEventPreserves(board: Board, key: string, date: string, time: string, description: string)
    requires RemoveEvent(board, key, date, time, description).Removed?
    ensures AllSorted(board) ==> AllSorted(RemoveEvent(board, key, date, time, description).board)
    ensures WellFormed(board) ==> WellFormed(RemoveEvent(board, key, date, time, description).board)
  {
    var rm := RemoveEvent(board, key, date, time, description);
    RemoveKeepsSorted(board, key, rm.board);
    RemoveKeepsWellFormed(board, key, rm.event, rm.board);
  }

  lemma RemoveKeepsSorted(board: Board, key: string, r: Board)
    requires key in board && r.Keys == board.Keys && SortedByTime(r[key])
    requires forall k :: k in board && k != key ==> r[k] == board[k]
    ensures AllSorted(board) ==> AllSorted(r)
  {
    if AllSorted(board) {
      forall k | k in r ensures SortedByTime(r[k]) {
        if k != key {
          assert r[k] == board[k];
        }
      }
    }
  }

  lemma RemoveKeepsWellFormed(board: Board, key: string, e: Event, r: Board)
    requires key in board && r.Keys == board.Keys
    requires multiset(r[key]) + multiset{e} == multiset(board[key])
    requires forall k :: k in board && k != key ==> r[k] == board[k]
    ensures WellFormed(board) ==> WellFormed(r)
  {
    if WellFormed(board) {
      forall k: string, x: Event | k in r && x in r[k] ensures x.date == k && IsStorable(x) {
        if k == key {
          assert x in multiset(r[key]);
          assert x in multiset(board[key]);
        } else {
          assert r[k] == board[k];
        }
      }
    }
  }
}

=== FILE: Text.dfy ===
/** The java.lang.String operations the server relies on, with Java's semantics:
    trim, ASCII case folding, compareTo, contains, split on a single char with a
    positive limit, and split on runs of whitespace. */
module Text {
  import opened Common

  // ---------------------------------------------------------------- trim

  /** String.trim() removes every leading and trailing char whose code is at most U+0020. */
  predicate IsTrimmable(c: char) {
    c <= ' '
  }

  /** No trimmable char at either end. */
  predicate IsTrimmed(s: string) {
    s == [] || (!IsTrimmable(s[0]) && !IsTrimmable(s[|s| - 1]))
  }

  function TrimLeft(s: string): string {
    if |s| > 0 && IsTrimmable(s[0]) then TrimLeft(s[1..]) else s
  }

  function TrimRight(s: string): string {
    if |s| > 0 && IsTrimmable(s[|s| - 1]) then TrimRight(s[..|s| - 1]) else s
  }

  /** TrimLeft drops a run of trimmable chars from the front and stops at the first
      char that is not trimmable. */
  lemma {:induction false} TrimLeftFacts(s: string)
    ensures var r := TrimLeft(s);
            && |r| <= |s| && r == s[|s| - |r|..]
            && (r == [] || !IsTrimmable(r[0]))
            && (forall i :: 0 <= i < |s| - |r| ==> IsTrimmable(s[i]))
  {
    if |s| > 0 && IsTrimmable(s[0]) {
      var t := s[1..];
      TrimLeftFacts(t);
      assert TrimLeft(s) == TrimLeft(t);
      assert forall i :: 1 <= i < |s| ==> s[i] == t[i - 1];
    }
  }

  /** TrimRight drops a run of trimmable chars from the back and stops at the last
      char that is not trimmable. */
  lemma {:induction false} TrimRightFacts(s: string)
    ensures var r := TrimRight(s);
            && |r| <= |s| && r == s[..|r|]
            && (r == [] || !IsTrimmable(r[|r| - 1]))
            && (forall i :: |r| <= i < |s| ==> IsTrimmable(s[i]))
  {
    if |s| > 0 && IsTrimmable(s[|s| - 1]) {
      TrimRightFacts(s[..|s| - 1]);
    }
  }

  /** r is the piece of s starting at lo, and every char of s outside that piece is trimmable. */
  ghost predicate IsCoreOf(s: string, lo: int, r: string) {
    && 0 <= lo && lo + |r| <= |s|
    && r == s[lo..lo + |r|]
    && (forall i :: 0 <= i < lo ==> IsTrimmable(s[i]))
    && (forall i :: lo + |r| <= i < |s| ==> IsTrimmable(s[i]))
  }

  /** String.trim(). */
  function Trim(s: string): (r: string)
    ensures IsTrimmed(r)
  {
    TrimLeftFacts(s);
    TrimRightFacts(TrimLeft(s));
    var r := TrimRight(TrimLeft(s));
    assert r != [] ==> r[0] == TrimLeft(s)[0];
    r
  }

  /** Trimming a prefix off s and then a suffix off what is left keeps a core of s. */
  lemma CoreOfParts(s: string, lo: int, l: string, r: string)
    requires 0 <= lo <= |s| && l == s[lo..] && |r| <= |l| && r == l[..|r|]
    requires forall i :: 0 <= i < lo ==> IsTrimmable(s[i])
    requires forall j :: |r| <= j < |l| ==> IsTrimmable(l[j])
    ensures IsCoreOf(s, lo, r)
  {
    forall i | lo + |r| <= i < |s|
      ensures IsTrimmable(s[i])
    {
      assert s[i] == l[i - lo];
    }
  }

  /** Trim keeps exactly the middle of s: it drops only trimmable chars, from both ends,
      and stops at the first char that is not trimmable on either side. */
  lemma TrimIsCore(s: string)
    ensures exists lo :: IsCoreOf(s, lo, Trim(s))
  {
    var l := TrimLeft(s);
    var r := TrimRight(l);
    TrimLeftFacts(s);
    TrimRightFacts(l);
    CoreOfParts(s, |s| - |l|, l, r);
    assert r == Trim(s);
  }

  /** Trimming a trimmed string changes nothing; in particular trim is idempotent. */
  lemma TrimOfTrimmed(s: string)
    requires IsTrimmed(s)
    ensures Trim(s) == s
  {
    assert TrimLeft(s) == s;
    assert TrimRight(s) == s;
  }

  lemma TrimIdempotent(s: string)
    ensures Trim(Trim(s)) == Trim(s)
  {
    TrimOfTrimmed(Trim(s));
  }

  /** Trimming after one leading space gives back a trimmed string; this is what reading
      the second and third field of a saved line relies on. */
  lemma TrimAfterSpace(s: string)
    requires IsTrimmed(s)
    ensures Trim(" " + s) == s
  {
    assert (" " + s)[1..] == s;
    assert TrimLeft(" " + s) == TrimLeft(s);
    assert TrimLeft(s) == s;
    assert TrimRight(s) == s;
  }

  /** Every char of the trimmed string comes from the original, so a char absent from s is
      absent from Trim(s). */
  lemma TrimKeepsAbsence(s: string, c: char)
    requires c !in s
    ensures c !in Trim(s)
  {
    var r := Trim(s);
    TrimIsCore(s);
    var lo :| IsCoreOf(s, lo, r);
    forall k | 0 <= k < |r| ensures r[k] != c {
      assert r[k] == s[lo + k];
    }
  }

  /** Trim drops only chars at or below U+0020, so it keeps every other char, as many
      times as it occurs. */
  lemma TrimKeepsCount(s: string, c: char)
    requires !IsTrimmable(c)
    ensures multiset(Trim(s))[c] == multiset(s)[c]
  {
    var r := Trim(s);
    TrimIsCore(s);
    var lo :| IsCoreOf(s, lo, r);
    var head, tail := s[..lo], s[lo + |r|..];
    assert s == head + r + tail;
    assert c !in head && c !in tail;
    assert multiset(s) == multiset(head) + multiset(r) + multiset(tail);
  }

  // ---------------------------------------------------------------- case folding

  /** Lower-casing of one char; only ASCII letters are folded. */
  function LowerChar(c: char): char {
    if 'A' <= c <= 'Z' then (c as int + 32) as char else c
  }

  /** String.toLowerCase(), ASCII letters only. */
  function Lower(s: string): (r: string)
    ensures |r| == |s|
    ensures forall i :: 0 <= i < |r| ==> !IsUpper(r[i])
    ensures forall i :: 0 <= i < |s| && !IsUpper(s[i]) ==> r[i] == s[i]
    ensures forall i :: 0 <= i < |s| && IsUpper(s[i]) ==> r[i] as int == s[i] as int + 32
  {
    seq(|s|, i requires 0 <= i < |s| => LowerChar(s[i]))
  }

  predicate IsUpper(c: char) {
    'A' <= c <= 'Z'
  }

  /** Case folding changes only letters, so a trimmed string stays trimmed. */
  lemma LowerKeepsTrimmed(s: string)
    requires IsTrimmed(s)
    ensures IsTrimmed(Lower(s))
  {
    var r := Lower(s);
    assert r != [] ==> r[0] == LowerChar(s[0]) && r[|r| - 1] == LowerChar(s[|s| - 1]);
  }

  predicate HasNoUpper(s: string) {
    forall i :: 0 <= i < |s| ==> !IsUpper(s[i])
  }

  /** Two chars match ignoring case: they are equal, or one is an upper-case ASCII letter
      and the other is its lower-case partner, 32 code points above it. */
  predicate SameLetter(c: char, d: char) {
    || c == d
    || (IsUpper(c) && d as int == c as int + 32)
    || (IsUpper(d) && c as int == d as int + 32)
  }

  /** String.equalsIgnoreCase(), ASCII letters only. */
  predicate EqualsIgnoreCase(a: string, b: string): (r: bool)
    ensures a == b ==> r
    ensures r ==> |a| == |b|
    ensures r && HasNoUpper(a) && HasNoUpper(b) ==> a == b
  {
    Lower(a) == Lower(b)
  }

  /** equalsIgnoreCase compares char by char: the same length, and chars that match
      ignoring case at every index. */
  lemma EqualsIgnoreCaseIsCharwise(a: string, b: string)
    ensures EqualsIgnoreCase(a, b) <==> |a| == |b| && forall i :: 0 <= i < |a| ==> SameLetter(a[i], b[i])
  {
    if |a| == |b| {
      forall i | 0 <= i < |a|
        ensures Lower(a)[i] == Lower(b)[i] <==> SameLetter(a[i], b[i])
      {
        assert Lower(a)[i] == LowerChar(a[i]) && Lower(b)[i] == LowerChar(b[i]);
      }
    }
  }

  /** Lower-casing keeps a string equal to itself ignoring case. */
  lemma LowerFoldsCase(s: string)
    ensures EqualsIgnoreCase(Lower(s), s)
  {
    EqualsIgnoreCaseIsCharwise(Lower(s), s);
    assert forall i :: 0 <= i < |s| ==> SameLetter(Lower(s)[i], s[i]);
  }

  /** Case folding maps a char to itself exactly when it is not an upper-case ASCII letter,
      and never turns anything into an upper-case letter. */
  lemma LowerCharFacts(c: char)
    ensures LowerChar(c) == c <==> !('A' <= c <= 'Z')
    ensures !('A' <= LowerChar(c) <= 'Z')
    ensures LowerChar(LowerChar(c)) == LowerChar(c)
  {
  }

  // ---------------------------------------------------------------- compareTo

  /** String.compareTo(): the difference of the first differing chars, or else the
      difference of the lengths. */
  function CompareTo(a: string, b: string): (r: int)
    ensures r == 0 <==> a == b
  {
    if a == [] || b == [] then |a| - |b|
    else if a[0] != b[0] then a[0] as int - b[0] as int
    else
      assert a == [a[0]] + a[1..] && b == [b[0]] + b[1..];
      CompareTo(a[1..], b[1..])
  }

  /** The comparator order: a does not come after b. */
  predicate LexLe(a: string, b: string) {
    CompareTo(a, b) <= 0
  }

  lemma {:induction false} CompareToAntisymmetric(a: string, b: string)
    ensures CompareTo(a, b) == -CompareTo(b, a)
  {
    if a != [] && b != [] && a[0] == b[0] {
      CompareToAntisymmetric(a[1..], b[1..]);
    }
  }

  /** LexLe is a total order: total, antisymmetric and transitive. */
  lemma LexLeTotal(a: string, b: string)
    ensures LexLe(a, b) || LexLe(b, a)
    ensures LexLe(a, b) && LexLe(b, a) ==> a == b
  {
    CompareToAntisymmetric(a, b);
  }

  lemma {:induction false} LexLeTransitive(a: string, b: string, c: string)
    requires LexLe(a, b) && LexLe(b, c)
    ensures LexLe(a, c)
  {
    if a != [] && b != [] && c != [] && a[0] == b[0] && b[0] == c[0] {
      LexLeTransitive(a[1..], b[1..], c[1..]);
    }
  }

  /** a and b agree before index k, and at k the char of a is the smaller one. */
  predicate FirstDiffBelow(a: string, b: string, k: int) {
    0 <= k < |a| && k < |b| && a[..k] == b[..k] && a[k] < b[k]
  }

  /** The comparator order is the lexicographic order: a is a prefix of b, or the first
      char where they differ is smaller in a. */
  lemma {:induction false} LexLeIsLexicographic(a: string, b: string)
    ensures LexLe(a, b) <==> a <= b || exists k :: FirstDiffBelow(a, b, k)
  {
    if a == [] || b == [] {
      assert forall k :: !FirstDiffBelow(a, b, k);
    } else if a[0] != b[0] {
      assert forall k :: FirstDiffBelow(a, b, k) ==> k == 0;
      if a[0] < b[0] { assert FirstDiffBelow(a, b, 0); }
    } else {
      LexLeIsLexicographic(a[1..], b[1..]);
      assert LexLe(a, b) == LexLe(a[1..], b[1..]);
      PrefixOfTails(a, b);
      if k' :| FirstDiffBelow(a[1..], b[1..], k') {
        FirstDiffOfTails(a, b, k' + 1);
      }
      if k :| FirstDiffBelow(a, b, k) {
        assert k > 0;
        FirstDiffOfTails(a, b, k);
      }
    }
  }

  lemma PrefixOfTails(a: string, b: string)
    requires a != [] && b != [] && a[0] == b[0]
    ensures a <= b <==> a[1..] <= b[1..]
  {
    assert a == [a[0]] + a[1..] && b == [b[0]] + b[1..];
  }

  lemma FirstDiffOfTails(a: string, b: string, k: int)
    requires a != [] && b != [] && a[0] == b[0] && k > 0
    ensures FirstDiffBelow(a, b, k) <==> FirstDiffBelow(a[1..], b[1..], k - 1)
  {
    if 0 < k <= |a| && k <= |b| {
      assert a[..k] == [a[0]] + a[1..][..k - 1] && b[..k] == [b[0]] + b[1..][..k - 1];
      assert a[1..][..k - 1] == a[..k][1..] && b[1..][..k - 1] == b[..k][1..];
    }
  }

  // ---------------------------------------------------------------- contains

  /** sub occurs in s starting at index i. */
  predicate OccursAt(s: string, sub: string, i: int) {
    0 <= i && i + |sub| <= |s| && s[i..i + |sub|] == sub
  }

  /** String.contains(). */
  function Contains(s: string, sub: string): (r: bool)
    ensures r <==> exists i :: OccursAt(s, sub, i)
    decreases |s|
  {
    if |s| < |sub| then false
    else if s[..|sub|] == sub then
      assert OccursAt(s, sub, 0);
      true
    else
      var r := Contains(s[1..], sub);
      assert r ==> exists i :: OccursAt(s, sub, i) by {
        if r {
          var i :| OccursAt(s[1..], sub, i);
          assert s[i + 1..i + 1 + |sub|] == s[1..][i..i + |sub|];
          assert OccursAt(s, sub, i + 1);
        }
      }
      assert (exists i :: OccursAt(s, sub, i)) ==> r by {
        if exists i :: OccursAt(s, sub, i) {
          var i :| OccursAt(s, sub, i);
          assert i != 0;
          assert s[1..][i - 1..i - 1 + |sub|] == s[i..i + |sub|];
          assert OccursAt(s[1..], sub, i - 1);
        }
      }
      r
  }

  // ---------------------------------------------------------------- split on one char

  /** String.indexOf(char). */
  function IndexOf(s: string, c: char): (r: Option<nat>)
    ensures r.None? <==> c !in s
    ensures r.Some? ==> r.value < |s| && s[r.value] == c && c !in s[..r.value]
  {
    if s == [] then None
    else if s[0] == c then Some(0)
    else
      match IndexOf(s[1..], c)
      case None => None
      case Some(i) =>
        assert s[..i + 1] == [s[0]] + s[1..][..i];
        Some(i + 1)
  }

  /** The inverse of Split: the parts glued back together with sep between them. */
  function Join(parts: seq<string>, sep: char): string
    requires |parts| >= 1
  {
    if |parts| == 1 then parts[0] else parts[0] + [sep] + Join(parts[1..], sep)
  }

  /** The pieces with a separator string between each two, as String.join builds them. */
  function JoinWith(parts: seq<string>, sep: string): string
    requires |parts| >= 1
  {
    if |parts| == 1 then parts[0] else parts[0] + sep + JoinWith(parts[1..], sep)
  }

  /** Joining one more piece adds the separator and the piece at the end. */
  lemma {:induction false} JoinWithSnoc(parts: seq<string>, last: string, sep: string)
    requires |parts| >= 1
    ensures JoinWith(parts + [last], sep) == JoinWith(parts, sep) + sep + last
  {
    if |parts| > 1 {
      assert (parts + [last])[1..] == parts[1..] + [last];
      JoinWithSnoc(parts[1..], last, sep);
    } else {
      assert (parts + [last])[1..] == [last];
    }
  }

  /** String.split(sep, limit) for a one-char, non-regex separator and limit >= 1: cut at
      the first limit - 1 occurrences of sep, keeping empty pieces, trailing ones included.
      All pieces but the last are free of sep, and the last is free of sep too unless the
      limit was reached; SplitJoins shows that the pieces glue back to s. */
  function Split(s: string, sep: char, limit: nat): (r: seq<string>)
    requires limit >= 1
    ensures 1 <= |r| <= limit
    ensures forall i :: 0 <= i < |r| - 1 ==> sep !in r[i]
    ensures |r| < limit ==> sep !in r[|r| - 1]
    decreases limit
  {
    if limit == 1 then [s]
    else
      match IndexOf(s, sep)
      case None => [s]
      case Some(i) =>
        var rest := Split(s[i + 1..], sep, limit - 1);
        var r := [s[..i]] + rest;
        assert forall j :: 1 <= j < |r| ==> r[j] == rest[j - 1];
        r
  }

  /** Splitting loses nothing: joining the pieces with sep gives back s. */
  lemma {:induction false} SplitJoins(s: string, sep: char, limit: nat)
    requires limit >= 1
    ensures Join(Split(s, sep, limit), sep) == s
    decreases limit
  {
    if limit > 1 && IndexOf(s, sep).Some? {
      var i := IndexOf(s, sep).value;
      var rest := Split(s[i + 1..], sep, limit - 1);
      SplitUnfold(s, sep, limit, i);
      JoinCons(s[..i], rest, sep);
      SplitJoins(s[i + 1..], sep, limit - 1);
      CutAt(s, i);
    }
  }

  /** One step of Split: the piece before the first sep, then the rest split with one piece fewer. */
  lemma SplitUnfold(s: string, sep: char, limit: nat, i: nat)
    requires limit > 1 && IndexOf(s, sep) == Some(i)
    ensures Split(s, sep, limit) == [s[..i]] + Split(s[i + 1..], sep, limit - 1)
  {
  }

  /** Joining a first piece in front of at least one more. */
  lemma JoinCons(a: string, rest: seq<string>, sep: char)
    requires |rest| >= 1
    ensures Join([a] + rest, sep) == a + [sep] + Join(rest, sep)
  {
    assert ([a] + rest)[1..] == rest;
  }

  /** Any string is the part before position i, the char at i, and the part after. */
  lemma CutAt(s: string, i: int)
    requires 0 <= i < |s|
    ensures s == s[..i] + [s[i]] + s[i + 1..]
  {
  }

  /** Cutting at a first occurrence of sep that is preceded by a sep-free piece a. */
  lemma SplitAtFirst(a: string, sep: char, b: string, limit: nat)
    requires sep !in a && limit >= 2
    ensures Split(a + [sep] + b, sep, limit) == [a] + Split(b, sep, limit - 1)
  {
    var s := a + [sep] + b;
    IndexOfAfterFree(a, sep, b);
    assert s[..|a|] == a;
    assert s[|a| + 1..] == b;
  }

  /** Two sep-free pieces followed by anything split into exactly those three pieces. */
  lemma SplitThree(a: string, b: string, c: string, sep: char)
    requires sep !in a && sep !in b
    ensures Split(a + [sep] + (b + [sep] + c), sep, 3) == [a, b, c]
  {
    SplitAtFirst(a, sep, b + [sep] + c, 3);
    SplitAtFirst(b, sep, c, 2);
  }

  /** The first occurrence of sep is the one right after the sep-free piece a. */
  lemma {:induction false} IndexOfAfterFree(a: string, sep: char, b: string)
    requires sep !in a
    ensures IndexOf(a + [sep] + b, sep) == Some(|a|)
  {
    if a != [] {
      assert (a + [sep] + b)[1..] == a[1..] + [sep] + b;
      IndexOfAfterFree(a[1..], sep, b);
    }
  }

  /** split(sep, limit) makes one piece more than there are seps, up to the limit. */
  lemma {:induction false} SplitCount(s: string, sep: char, limit: nat)
    requires limit >= 1
    ensures |Split(s, sep, limit)| == if multiset(s)[sep] + 1 < limit then multiset(s)[sep] + 1 else limit
    decreases limit
  {
    if limit > 1 {
      match IndexOf(s, sep)
      case None =>
        assert multiset(s)[sep] == 0;
      case Some(i) =>
        SplitUnfold(s, sep, limit, i);
        SplitCount(s[i + 1..], sep, limit - 1);
        CutAt(s, i);
        assert multiset(s[..i])[sep] == 0;
        assert multiset(s)[sep] == multiset(s[..i])[sep] + 1 + multiset(s[i + 1..])[sep] by {
          assert multiset(s) == multiset(s[..i]) + multiset{sep} + multiset(s[i + 1..]);
        }
    }
  }

  // ---------------------------------------------------------------- split on whitespace

  /** The chars matched by the regular expression \s: space, tab, line feed, vertical tab,
      form feed and carriage return. */
  predicate IsSpace(c: char) {
    c == ' ' || c == '\t' || c == '\n' || c == 11 as char || c == 12 as char || c == '\r'
  }

  predicate HasNoSpace(s: string) {
    forall i :: 0 <= i < |s| ==> !IsSpace(s[i])
  }

  /** Length of the leading run of non-space chars. */
  function WordLength(s: string): (n: nat)
    ensures n <= |s|
    ensures HasNoSpace(s[..n])
    ensures n == |s| || IsSpace(s[n])
  {
    if s == [] || IsSpace(s[0]) then 0
    else
      var n := WordLength(s[1..]);
      assert s[..n + 1] == [s[0]] + s[1..][..n];
      n + 1
  }

  /** The maximal runs of non-space chars of s, in order. On a non-empty string that is
      already trimmed (so neither begins nor ends with a space) this is
      String.split("\\s+"). On the empty string Java gives [""] and Words gives []. */
  function Words(s: string): (r: seq<string>)
    ensures forall i :: 0 <= i < |r| ==> r[i] != [] && HasNoSpace(r[i])
    ensures r == [] <==> IsBlank(s)
    decreases |s|
  {
    if s == [] then []
    else if IsSpace(s[0]) then
      assert forall i :: 1 <= i < |s| ==> s[i] == s[1..][i - 1];
      Words(s[1..])
    else
      var n := WordLength(s);
      [s[..n]] + Words(s[n..])
  }

  /** Nothing but whitespace (possibly nothing at all). */
  predicate IsBlank(s: string) {
    forall i :: 0 <= i < |s| ==> IsSpace(s[i])
  }

  /** Words separated by runs of whitespace: gaps[0], ws[0], gaps[1], ws[1], ..., gaps[|ws|].
      The run before the first word and the run after the last may be empty. */
  function Spaced(ws: seq<string>, gaps: seq<string>): string
    requires |gaps| == |ws| + 1
  {
    if ws == [] then gaps[0] else gaps[0] + ws[0] + Spaced(ws[1..], gaps[1..])
  }

  /** Any run of \s separates two words, and runs before the first word or after the last
      add no piece: Words gives back exactly the words however they were spaced. */
  lemma {:induction false} WordsOfSpaced(ws: seq<string>, gaps: seq<string>)
    requires |gaps| == |ws| + 1
    requires forall i :: 0 <= i < |ws| ==> ws[i] != [] && HasNoSpace(ws[i])
    requires forall j :: 0 <= j < |gaps| ==> IsBlank(gaps[j])
    requires forall j :: 0 < j < |ws| ==> gaps[j] != []
    ensures Words(Spaced(ws, gaps)) == ws
  {
    if ws == [] {
      SkipBlank(gaps[0], []);
    } else {
      var w := ws[0];
      var rest := Spaced(ws[1..], gaps[1..]);
      assert rest == [] || IsSpace(rest[0]) by {
        if |ws| == 1 {
          assert rest == gaps[1];
        } else {
          assert rest == gaps[1] + (ws[1] + Spaced(ws[2..], gaps[2..]));
          assert rest[0] == gaps[1][0];
        }
      }
      assert Spaced(ws, gaps) == gaps[0] + (w + rest);
      SkipBlank(gaps[0], w + rest);
      WordThenSpace(w, rest);
      WordsOfSpaced(ws[1..], gaps[1..]);
      assert ws == [w] + ws[1..];
    }
  }

  /** Leading whitespace adds no word. */
  lemma {:induction false} SkipBlank(g: string, s: string)
    requires IsBlank(g)
    ensures Words(g + s) == Words(s)
    decreases |g|
  {
    if g != [] {
      assert (g + s)[0] == g[0] && IsSpace(g[0]);
      assert (g + s)[1..] == g[1..] + s;
      SkipBlank(g[1..], s);
    } else {
      assert g + s == s;
    }
  }

  /** A word followed by nothing or by whitespace is the first piece. */
  lemma WordThenSpace(w: string, rest: string)
    requires w != [] && HasNoSpace(w)
    requires rest == [] || IsSpace(rest[0])
    ensures Words(w + rest) == [w] + Words(rest)
  {
    var s := w + rest;
    WordOfPrefix(w, rest);
    assert s[..|w|] == w;
    assert s[|w|..] == rest;
  }

  /** "2  November\t2025" splits into its three words. */
  lemma WordsOfSpacedDate()
    ensures Words("2  November\t2025") == ["2", "November", "2025"]
  {
    var ws := ["2", "November", "2025"];
    var gaps := ["", "  ", "\t", ""];
    assert Spaced(ws, gaps) == "2  November\t2025" by {
      assert Spaced(ws[3..], gaps[3..]) == "";
      assert Spaced(ws[2..], gaps[2..]) == "\t2025";
      assert Spaced(ws[1..], gaps[1..]) == "  November\t2025";
    }
    assert forall i :: 0 <= i < |ws| ==> ws[i] != [] && HasNoSpace(ws[i]) by {
      assert HasNoSpace(ws[0]) && HasNoSpace(ws[1]) && HasNoSpace(ws[2]);
    }
    assert forall j :: 0 <= j < |gaps| ==> IsBlank(gaps[j]) by {
      assert IsBlank(gaps[0]) && IsBlank(gaps[1]) && IsBlank(gaps[2]) && IsBlank(gaps[3]);
    }
    WordsOfSpaced(ws, gaps);
  }

  /** The inverse of Words: the words joined by single spaces. */
  function Unwords(ws: seq<string>): string {
    if ws == [] then [] else if |ws| == 1 then ws[0] else ws[0] + " " + Unwords(ws[1..])
  }

  /** Splitting words that were joined by single spaces gives back the same words. */
  lemma {:induction false} WordsOfUnwords(ws: seq<string>)
    requires forall i :: 0 <= i < |ws| ==> ws[i] != [] && HasNoSpace(ws[i])
    ensures Words(Unwords(ws)) == ws
  {
    if ws == [] {
    } else {
      var w := ws[0];
      var tail := if |ws| == 1 then [] else " " + Unwords(ws[1..]);
      var s := w + tail;
      assert Unwords(ws) == s;
      WordOfPrefix(w, tail);
      assert s[..|w|] == w;
      assert s[|w|..] == tail;
      if |ws| == 1 {
        assert Words(s) == [w] + Words([]);
      } else {
        WordsOfUnwords(ws[1..]);
        assert tail[1..] == Unwords(ws[1..]);
        assert Words(tail) == Words(Unwords(ws[1..]));
        assert ws == [w] + ws[1..];
      }
    }
  }

  lemma WordOfPrefix(w: string, tail: string)
    requires w != [] && HasNoSpace(w)
    requires tail == [] || IsSpace(tail[0])
    ensures WordLength(w + tail) == |w|
  {
    var s := w + tail;
    var n := WordLength(s);
    assert s[..|w|] == w;
  }
}

=== FILE: Validation.dfy ===
/** The server's checks on the date and time fields of add and remove. */
module Validation {
  import opened Common
  import opened Text
  import opened Numbers

  /** The outcome of a check: the reason text is what the exception would carry. */
  datatype Verdict = Valid | Invalid(reason: string)

  /** The twelve full English month names, lower case. */
  const Months: set<string> := {
    "january", "february", "march", "april", "may", "june",
    "july", "august", "september", "october", "november", "december"
  }

  /** A word that Integer.parseInt reads as an int within [lo, hi]. */
  predicate IsIntBetween(w: string, lo: int, hi: int) {
    ParseInt(w).Some? && lo <= ParseInt(w).value <= hi
  }

  /** A month name in any mix of letter cases. */
  predicate IsMonthName(w: string) {
    Lower(w) in Months
  }

  /** The shape the server accepts: day, full month name, year. */
  predicate IsDateWords(ws: seq<string>) {
    |ws| == 3 && IsIntBetween(ws[0], 1, 31) && IsMonthName(ws[1]) && IsIntBetween(ws[2], 1900, 2100)
  }

  /** validateDate: the text must split on whitespace into a day in [1,31], a full month
      name and a year in [1900,2100]. The first rule that fails gives the reason. */
  function ValidateDate(date: string): (r: Verdict)
    ensures date == [] ==> r == Invalid("No Date Found.")
    ensures r == Valid <==> date != [] && IsDateWords(Words(Trim(date)))
  {
    if date == [] then Invalid("No Date Found.") else CheckDateWords(date, Words(Trim(date)))
  }

  /** The checks of validateDate after the emptiness test, on the whitespace-separated
      parts of the trimmed date. */
  function CheckDateWords(date: string, parts: seq<string>): (r: Verdict)
    ensures r == Valid <==> IsDateWords(parts)
  {
    if |parts| != 3 then
      Invalid("You entered: " + date + ". You're supposed to format the date and include a day, month and year")
    else
      match ParseInt(parts[0])
      case None => Invalid("You didn't enter a number. You entered: " + parts[0] + ".")
      case Some(day) =>
        if day < 1 || day > 31 then
          Invalid("The Day you entered is too high or too low. You entered: " + parts[0] + ".")
        else if !IsMonthName(parts[1]) then
          Invalid("Month must be a full month name. You entered: " + parts[1] + ".")
        else
          match ParseInt(parts[2])
          case None => Invalid("Year must be a number. You entered: " + parts[2] + ".")
          case Some(year) =>
            if year < 1900 || year > 2100 then
              Invalid("Year must be between 1900 and 2100. You entered: " + parts[2] + ".")
            else Valid
  }

  /** "am" or "pm", in any letter case, starts at index i of t. */
  predicate MeridiemAt(t: string, i: int) {
    && 0 <= i && i + 1 < |t|
    && (LowerChar(t[i]) == 'a' || LowerChar(t[i]) == 'p')
    && LowerChar(t[i + 1]) == 'm'
  }

  /** validateTime: non-empty, and "am" or "pm" occurs somewhere ignoring case. It is a
      substring test, not a time parse. */
  function ValidateTime(time: string): (r: Verdict)
    ensures time == [] ==> r == Invalid("No Time Found.")
    ensures r == Valid <==> time != [] && exists i :: MeridiemAt(time, i)
  {
    if time == [] then Invalid("No Time Found.")
    else
      var t := Lower(time);
      LowerContainsIff(time, "am", 'a');
      LowerContainsIff(time, "pm", 'p');
      if !(Contains(t, "am") || Contains(t, "pm")) then
        Invalid("You entered: " + time + ". You're supposed to include 'am' or 'pm'. Try again")
      else Valid
  }

  lemma LowerContainsIff(time: string, sub: string, first: char)
    requires first == 'a' || first == 'p'
    requires sub == [first, 'm']
    ensures Contains(Lower(time), sub) <==>
              exists i :: MeridiemAt(time, i) && LowerChar(time[i]) == first
  {
    var t := Lower(time);
    forall i | OccursAt(t, sub, i)
      ensures MeridiemAt(time, i) && LowerChar(time[i]) == first
    {
      assert t[i] == t[i..i + 2][0];
      assert t[i + 1] == t[i..i + 2][1];
    }
    forall i | MeridiemAt(time, i) && LowerChar(time[i]) == first
      ensures OccursAt(t, sub, i)
    {
      assert t[i..i + 2] == [t[i], t[i + 1]];
    }
  }

  // ---------------------------------------------------------------- consequences

  /** Every date written as "day Month year", with the month in any letter case, is
      accepted, for every day in [1,31] and year in [1900,2100]. */
  lemma AcceptsDayMonthYear(day: int, month: string, year: int)
    requires 1 <= day <= 31 && 1900 <= year <= 2100
    requires IsMonthName(month)
    ensures ValidateDate(ShowInt(day) + " " + month + " " + ShowInt(year)) == Valid
  {
    var ws := [ShowInt(day), month, ShowInt(year)];
    var date := ShowInt(day) + " " + month + " " + ShowInt(year);
    MonthNameShape(month);
    assert HasNoSpace(ShowInt(day)) by { DigitsHaveNoSpace(ShowInt(day)); }
    assert HasNoSpace(ShowInt(year)) by { DigitsHaveNoSpace(ShowInt(year)); }
    assert Unwords(ws) == date by {
      assert Unwords(ws[1..]) == month + " " + ShowInt(year) by {
        assert ws[1..][1..] == [ShowInt(year)];
      }
    }
    WordsOfUnwords(ws);
    assert IsTrimmed(date) by {
      assert date[0] == ShowInt(day)[0];
      assert date[|date| - 1] == ShowInt(year)[|ShowInt(year)| - 1];
    }
    TrimOfTrimmed(date);
    ParseShowInt(day);
    ParseShowInt(year);
  }

  /** Every date "d Month y" is accepted when parseInt reads d as a day and y as a year in
      range, whatever the form of the numbers: leading zeros and a sign included. */
  lemma AcceptsDateWords(d: string, month: string, y: string)
    requires IsIntBetween(d, 1, 31) && IsMonthName(month) && IsIntBetween(y, 1900, 2100)
    ensures ValidateDate(d + " " + month + " " + y) == Valid
  {
    MonthNameShape(month);
    IntTextHasNoSpace(d);
    IntTextHasNoSpace(y);
    ThreeWords(d, month, y);
  }

  /** Three space-free words joined by single spaces split back into those words. */
  lemma ThreeWords(d: string, month: string, y: string)
    requires d != [] && HasNoSpace(d) && !IsTrimmable(d[0])
    requires month != [] && HasNoSpace(month)
    requires y != [] && HasNoSpace(y) && !IsTrimmable(y[|y| - 1])
    ensures Words(Trim(d + " " + month + " " + y)) == [d, month, y]
  {
    var ws := [d, month, y];
    var date := d + " " + month + " " + y;
    assert Unwords(ws) == date by {
      assert Unwords(ws[1..]) == month + " " + y by {
        assert ws[1..][1..] == [y];
      }
    }
    WordsOfUnwords(ws);
    assert IsTrimmed(date) by {
      assert date[0] == d[0];
      assert date[|date| - 1] == y[|y| - 1];
    }
    TrimOfTrimmed(date);
  }

  /** Text that parseInt reads has no space, and neither end is trimmable. */
  lemma IntTextHasNoSpace(s: string)
    requires ParseInt(s).Some?
    ensures s != [] && HasNoSpace(s)
    ensures !IsTrimmable(s[0]) && !IsTrimmable(s[|s| - 1])
  {
    assert IsIntText(s);
    forall i | 0 <= i < |s| ensures !IsSpace(s[i]) && !IsTrimmable(s[i]) {
      if i > 0 { assert s[i] == s[1..][i - 1]; }
    }
  }

  /** "02 November 2025" is accepted: parseInt reads the day 02 as 2. */
  lemma AcceptsPaddedDay()
    ensures ValidateDate("02 November 2025") == Valid
  {
    assert IsIntBetween("02", 1, 31) by {
      ParseIntNonCanonical();
    }
    assert IsMonthName("November") by {
      assert Lower("November") == "november";
    }
    assert IsIntBetween("2025", 1900, 2100) by {
      ParseShowInt(2025);
      YearText();
    }
    AcceptsDateWords("02", "November", "2025");
    PaddedDateText();
  }

  lemma PaddedDateText()
    ensures "02" + " " + "November" + " " + "2025" == "02 November 2025"
  {
  }

  lemma YearText()
    ensures ShowInt(2025) == "2025"
  {
    assert ShowNat(20) == "20";
    assert ShowNat(202) == "202";
  }

  lemma DigitsHaveNoSpace(s: string)
    requires AllDigits(s)
    ensures HasNoSpace(s)
  {
  }

  /** A word that folds to a month name has letters only: no spaces, nothing trimmable. */
  lemma MonthNameShape(month: string)
    requires Lower(month) in Months
    ensures month != [] && HasNoSpace(month)
    ensures forall i :: 0 <= i < |month| ==> 'a' <= LowerChar(month[i]) <= 'z'
  {
    var m := Lower(month);
    assert forall i :: 0 <= i < |m| ==> 'a' <= m[i] <= 'z';
    forall i | 0 <= i < |month|
      ensures 'a' <= LowerChar(month[i]) <= 'z' && !IsSpace(month[i])
    {
      assert m[i] == LowerChar(month[i]);
    }
  }

  /** A date in ISO form, or any other single word, is rejected for its shape. */
  lemma RejectsSingleWord(date: string)
    requires date != [] && HasNoSpace(date) && IsTrimmed(date)
    ensures ValidateDate(date) ==
              Invalid("You entered: " + date + ". You're supposed to format the date and include a day, month and year")
  {
    TrimOfTrimmed(date);
    WordsOfUnwords([date]);
  }

  /** The server accepts the long form of a date... */
  lemma AcceptsLongDate()
    ensures ValidateDate("2 November 2025") == Valid
  {
    assert IsMonthName("November") by {
      assert Lower("November") == "november";
    }
    AcceptsDayMonthYear(2, "November", 2025);
    LongDateText();
  }

  lemma LongDateText()
    ensures ShowInt(2) + " " + "November" + " " + ShowInt(2025) == "2 November 2025"
  {
    assert ShowNat(2) == "2";
    assert ShowNat(20) == "20";
    assert ShowNat(202) == "202";
    assert ShowNat(2025) == "2025";
  }

  /** ...and rejects the ISO form that the importing client accepts. */
  lemma RejectsIsoDate()
    ensures ValidateDate("2025-11-02").Invalid?
  {
    RejectsSingleWord("2025-11-02");
  }

  lemma ValidateTimeExamples()
    ensures ValidateTime("6pm") == Valid
    ensures ValidateTime("6:30pm") == Valid
    ensures ValidateTime("xpm") == Valid
    ensures ValidateTime("6 PM") == Valid
    ensures ValidateTime("18:00").Invalid?
    ensures ValidateTime("") == Invalid("No Time Found.")
  {
    assert MeridiemAt("6pm", 1);
    assert MeridiemAt("6:30pm", 4);
    assert MeridiemAt("xpm", 1);
    assert MeridiemAt("6 PM", 2);
    var t := "18:00";
    forall i | 0 <= i < |t| ensures LowerChar(t[i]) != 'a' && LowerChar(t[i]) != 'p' {
    }
  }
}
